=== FILE: README.md ===
# react-look renderer, modelled in Dafny

This project models the core of react-look's static renderer,
`modules/core/renderer.js`. The renderer turns a style object into CSS rules
registered with a global style container, in three functions:

- `extractDynamicStyles(styles)` splits a style tree in one pass. Function
  values and plain objects under ordinary keys are dynamic: they are moved out
  whole. Pseudo-class and media-query sub-maps are recursed into, their
  dynamic parts reported under the same key, and the key deleted from the
  static tree when the inner dynamic map has as many keys as the sub-map
  (line 34).
- `renderSpecialStyles(selector, styles, pseudo, media)` walks the
  pseudo-class and media-query sub-maps in the order of `sortPseudoClasses`.
  It registers one rule per nested block, with the selector
  `'.' + selector + pseudo + key` or the media condition built on line 73, and
  returns the flat styles of the level it was given.
- `renderStaticStyles(styles, scope, selector)` runs the extraction, takes the
  flat base styles out of what is left, and names the class
  `scope-(selector || 'default')-generateClassName(base)`. It registers the
  base rule and the dynamic styles when they are not empty, renders the
  special styles and returns the class name.

The in-place mutation is modelled functionally:

- A style object is an ordered association list with distinct keys, in
  `Object.keys` order (`Styles.StyleMap`; `WellFormed` holds at every depth).
- `Extraction.Extract` returns the pair (static remainder, dynamic map).
- The two renderers return their result together with the log of container
  calls they make (`Context.Call`: `Add(selector, styles, media)` and
  `AddDynamic(className, styles)`).
- `isPseudo`, `isMediaQuery`, `sortPseudoClasses` and `generateClassName` are
  imported, and their code is not part of this model. They are
  function-valued fields of `Context.Env`. The only thing assumed of the sort
  is that it permutes the keys (`OrdersByPermutation`).
- An array under a pseudo-class or media-query key is descended into by
  `renderSpecialStyles`, since `typeof` says `'object'`; its keys are its
  indices written in decimal (`Styles.View`, `Text.Decimal`).

Two lines of the renderer do not do what their comments say. Each is modelled
as written and corrected, and `Context.Variant` chooses between them. The
choice is confined to `Extraction.Prunes` (line 34) and
`SpecialRendering.NewMedia` (line 73). Every general property below is proved
for both variants, except `CorrectedKeepsStaticLeaves`, which holds only for
the corrected one.

Modules, in dependency order: `Text` (string helpers, `String.replace`,
decimal keys), `Styles` (values and maps), `Context` (collaborators, calls,
safety), `Extraction`, `SpecialRendering`, `StaticRendering`, `Scenarios`
(concrete style objects and the two findings).

## Model

| member | source | states |
|---|---|---|
| Extraction.Extract | modules/core/renderer.js:12-52 | the remainder and the dynamic map have distinct keys, and every key of either was a key of the input |
| Extraction.ExtractEntry | modules/core/renderer.js:14-50 | one key's step leaves at most one entry in the remainder and reports at most one, both under that key |
| Extraction.ExtractPerKey | modules/core/renderer.js:14-48 | for every input key: a primitive or array stays in the remainder and is not reported; a function, a `null` or a plain object under an ordinary key leaves the remainder and appears unchanged in the dynamic map; a pseudo-class or media-query sub-map is reported exactly when its own extraction is non-empty, and stays with its remainder unless the pruning test holds |
| Extraction.ExtractSeparates | modules/core/renderer.js:12-52 | no function, `null` or plain object survives in the remainder at any depth reached through pseudo-class and media-query sub-maps (arrays are kept whole, with what they hold), and the dynamic map never holds a primitive or array where the renderer would emit it |
| Extraction.SecondPassFindsNothing | modules/core/renderer.js:12-52 | extracting the remainder a second time finds nothing dynamic |
| Extraction.CleanHasNothingDynamic | modules/core/renderer.js:12-52 | a map with nothing dynamic in it yields an empty dynamic map |
| Extraction.ExtractReportsIffDynamic | modules/core/renderer.js:28-30 | the dynamic map is non-empty if and only if the input holds a function, or a `null` or plain object under an ordinary key, at some depth reached through pseudo-class and media-query keys |
| Extraction.ExtractKeepsFlat | modules/core/renderer.js:17-48 | the primitive and array entries of the top level are left exactly as they were, in the same order |
| Extraction.ShallowSplit | modules/core/renderer.js:45-48 | on a map without nested objects extraction is exactly the split into its flat styles and its functions |
| Extraction.ExtractKeepsRenderSafe | modules/core/renderer.js:12-52 | what the special-style renderer can descend into without throwing is still safe after extraction |
| Extraction.ExtractInventsNoStaticLeaf | modules/core/renderer.js:32-36 | every flat style reachable in the remainder through pseudo-class and media-query keys was in the input at the same path |
| Extraction.CorrectedKeepsStaticLeaves | modules/core/renderer.js:32-36 | with the corrected pruning test every flat style of the input is still in the remainder at the same path |
| SpecialRendering.RenderSpecial | modules/core/renderer.js:62-83 | the returned extension holds exactly the non-object entries of the level, unchanged, with no key twice; for every key holding an object or array, the log holds the rule `'.' + selector + pseudo + key` under `media` if the key is a pseudo-class, and the rule `'.' + selector + pseudo` under the new media condition if it is a media query, each with exactly the flat styles of the sub-map; the same holds at every depth, for every key of a sub-map under the pseudo-class `k` with `k` appended to `pseudo`, and for every key of a sub-map under the media query `k` under the new media condition; every rule's selector extends `'.' + selector + pseudo`; the log has one rule per pseudo-class or media-query block nested in the map, whatever order the sort chooses; conversely, every call in the log is one of those rules: the own rule of some block nested in the map, with that block's selector, condition and flat styles |
| SpecialRendering.RenderKeys | modules/core/renderer.js:63-82 | folding over distinct keys of the map: the extension holds exactly the non-object entries of the visited keys; the log holds the pseudo-class and media rules owed by every visited key and, at every depth, by the keys of their sub-maps; it has as many rules as there are blocks under those keys, and every call in it is the own rule of one of those blocks |
| SpecialRendering.KeysBlocksOfPermutation | modules/core/renderer.js:63 | the number of rules registered does not depend on the order the sort puts the keys in |
| SpecialRendering.RenderKey | modules/core/renderer.js:64-81 | a non-object value goes to the extension under its key and registers nothing; an object or array under an ordinary key registers nothing and is not in the extension; under a pseudo-class key the log holds `'.' + selector + pseudo + key` with the sub-map's flat styles under `media`, and under a media-query key it holds `'.' + selector + pseudo` with those styles under the new media condition; the rules owed at every depth by the keys of the sub-map are in the log too; no rule lies outside `'.' + selector + pseudo`; every call in the log is the own rule of the key's block or of a block nested in it |
| SpecialRendering.PseudoBlock | modules/core/renderer.js:66-70 | it registers one rule per block in the sub-map plus its own; every rule's selector extends `'.' + selector + pseudo + key`; the last call adds `'.' + selector + pseudo + key` with exactly the flat styles of the sub-map, under the unchanged media; the log holds the rules owed at every depth by the keys of the sub-map, rendered with `key` appended to `pseudo` and the same media; every call in the log is that own rule or the rule of a block nested in the sub-map |
| SpecialRendering.MediaBlock | modules/core/renderer.js:71-77 | it registers one rule per block in the sub-map plus its own; every rule's selector extends `'.' + selector + pseudo`; the last call adds `'.' + selector + pseudo` with exactly the flat styles of the sub-map, under the new media condition; the log holds the rules owed at every depth by the keys of the sub-map, rendered with `pseudo` unchanged under the new media condition; every call in the log is that own rule or the rule of a block nested in the sub-map |
| SpecialRendering.NewMedia | modules/core/renderer.js:73 | for a key starting with `@media`, the new condition is ` and` (only when an outer condition exists) followed by the key without its `@media`; as written the outer condition itself is dropped, corrected it comes first; either way the condition ends with the key's own condition |
| Text.RemoveFirst | modules/core/renderer.js:73 | `replace` with a string pattern and `''` removes at most one copy of the pattern |
| Text.RemoveFirstDeletesFirstOccurrence | modules/core/renderer.js:73 | `replace` with a string pattern removes the first occurrence only and keeps the text around it |
| Text.RemoveFirstWithoutOccurrence | modules/core/renderer.js:73 | text without an occurrence of the pattern is returned unchanged |
| StaticRendering.SelectorOrDefault | modules/core/renderer.js:108 | an absent or empty selector hint becomes `default`, any other is kept |
| StaticRendering.BaseStyles | modules/core/renderer.js:98-105 | the base styles are exactly the entries whose value is not an object or is an array |
| StaticRendering.Nested | modules/core/renderer.js:98-105 | what stays in the map and the base styles have as many entries together as the map: no entry is lost or taken twice |
| StaticRendering.NestedMembers | modules/core/renderer.js:98-105 | what stays in the map is exactly the entries holding a non-array object |
| StaticRendering.BaseOfCleanIsFlat | modules/core/renderer.js:98-105 | after extraction the base styles taken on lines 98-105 are exactly the map's flat entries |
| StaticRendering.NestedWellFormed | modules/core/renderer.js:98-105 | what lines 98-105 leave in the map has distinct keys at every depth, all of them keys of the map |
| StaticRendering.NestedIsRenderable | modules/core/renderer.js:98-105 | what lines 98-105 leave in a map that is safe to render is safe to render, and has only keys of the map |
| StaticRendering.RenderStaticStyles | modules/core/renderer.js:93-124 | the class name is `scope-(selector or default)-` followed by the hash of the input's top-level flat styles; the first call adds those styles with no media exactly when there are any, and no other call is without media; every rule's selector extends `'.' + className`; `AddDynamic` is called, with the extracted dynamic map, exactly when the input holds something dynamic; every pseudo-class or media-query key left after extraction has its rule, with its flat styles, in the log, and so has every such key nested under them at any depth; every call with a media condition is the rule of one of those blocks |
| StaticRendering.Assemble | modules/core/renderer.js:110-121 | the calls of the special-style renderer come last, unchanged, and the only other calls are the base rule and the dynamic styles |
| StaticRendering.AssembleLog | modules/core/renderer.js:110-121 | the base rule is registered first and only when the base is non-empty; the dynamic styles only when non-empty; no special rule is without media |
| Scenarios.ChainSplits | modules/core/renderer.js:20-36 | `{h: {g: {a, w}}}` with special `h`, `g`, a primitive `a` and a function `w`: the dynamic part is `{h: {g: {w}}}`; the remainder is empty as written and `{h: {g: {a}}}` corrected |
| Scenarios.OnePseudoClass | modules/core/renderer.js:66-69 | a single pseudo-class key renders its sub-map with the key appended to `pseudo`, then adds the rule for it under the unchanged media |
| Scenarios.OneMediaQuery | modules/core/renderer.js:71-76 | a single media-query key renders its sub-map under the new condition, then adds the rule for the unchanged selector under that condition |
| Scenarios.OneFlatStyle | modules/core/renderer.js:78-80 | a single flat style is returned as the extension and registers nothing |
| Scenarios.PseudoClassesChain | modules/core/renderer.js:66-69 | `{:a: {:b: {x}}}` registers `x` under `.selector:a:b`, then an empty rule for `.selector:a` |
| Scenarios.ContractReachesChainLeaf | modules/core/renderer.js:66-69 | every log meeting the special-style renderer's contract on `{:a: {:b: {x}}}` holds the rule `{x}` for `.selector:a:b`, the innermost block |
| Scenarios.ContractRejectsStrayCondition | modules/core/renderer.js:62-83 | on `{'@media c': {':a': {x}}, ':a': {'@media c': {x}}}` every call a log meeting the special-style renderer's contract may hold is a rule under the condition ` c` or under none |
| Scenarios.MediaThenPseudoOwes | modules/core/renderer.js:66-76 | every call owed by `{'@media c': {':a': {x}}}` is a rule under ` c` |
| Scenarios.PseudoThenMediaOwes | modules/core/renderer.js:66-76 | every call owed by `{':a': {'@media c': {x}}}` is a rule under no condition (the block's own) or under ` c` (the inner block's) |
| Scenarios.MediaQueriesNest | modules/core/renderer.js:71-76 | two nested media queries around a flat style register it under the condition built from both keys, then an empty rule under the outer condition |
| Scenarios.MediaConditionsNest | modules/core/renderer.js:71-76 | for `@media c1` around `@media c2`, the inner rule's condition is ` and c2` as written and `c1 and c2` corrected; the outer rule's is `c1` |
| Scenarios.ButtonRenders | modules/core/renderer.js:93-123 | `{a, :hover: {b}, f}` with a function `f` renders as the base rule `{a}`, the dynamic styles `{f}` and the rule `{b}` for `.className:hover`, in that order, with the class name `scope-default-hash({a})` |
| Scenarios.HoverFocusLosesColor | modules/core/renderer.js:20-36 | as written, extracting `{':hover': {':focus': {color: 'red', width: fn}}}` leaves an empty static map, although `color: red` is a static style of the input |
| Scenarios.AsWrittenLosesStaticStyle | modules/core/renderer.js:34 | as written, the static style `a` under `h` then `g` is lost from the remainder |
| Scenarios.CorrectedKeepsStaticStyle | modules/core/renderer.js:32-36 | with the corrected pruning test the same style is kept at the same path |
| Scenarios.AsWrittenDropsOuterMedia | modules/core/renderer.js:71-76 | as written, the rule for `@media c2` nested in `@media c1` is registered under ` and c2` alone: the outer condition is dropped |
| Scenarios.CorrectedCompoundsMedia | modules/core/renderer.js:71-76 | corrected, the same rule is registered under the compound condition `c1 and c2` |

## Left out

- `StyleContainer` (imported at line 1) is not part of this model. Its calls are recorded in order, with their arguments. Deduplication, storage and stylesheet output are not modelled.
- `generateClassName`, `isPseudo`, `isMediaQuery` and `sortPseudoClasses` (lines 2-5) are not part of this model. They are uninterpreted functions. Of the sort, only that it permutes the keys is used. Nothing is claimed about hash collisions.
- Function values are opaque tokens (`Fn(id)`). The renderer never calls them, and neither does the model.
- A `null` under a pseudo-class or media-query key makes `Object.keys` throw (line 21, and line 63 for the renderer). The model requires inputs that do not throw instead of modelling the exception: `ExtractSafe` of the input, and `RenderSafe` of what is handed to the special-style renderer on line 121.
- Shared or cyclic sub-objects are not modelled. Style objects are trees, so the in-place mutation equals the functional split.
- Key order is the insertion order of the association list. JavaScript's rule that integer-like keys enumerate first is not modelled.
- The plugin pipeline, the presets, and the runtime resolution of dynamic styles are outside this file.
- RenderSpecial: states the extension as a set of entries, and the log as containing the rule of every block nested in the map, holding nothing else, with one call per block. The order of the calls follows the abstract comparator and is not stated. Nor is it stated which call belongs to which block when two blocks owe the same rule. The order is stated exactly in the `Scenarios` lemmas, where the comparator keeps the keys as they are.
- RenderStaticStyles: the special rules are stated as the rules owed at every depth by the keys left after extraction, and every call with a media condition as one of them; their count and order are left to `RenderSpecial`; `ButtonRenders` lists the whole log for a concrete object.

## Findings

| source | as written | input that shows it | evidently intended | confidence | as-written member | corrected member |
|---|---|---|---|---|---|---|
| modules/core/renderer.js:34 | the pseudo-class or media-query key is deleted when the inner dynamic map has as many keys as the sub-map | `{':hover': {':focus': {color: 'red', width: fn}}}`: `:focus` is both reported and kept, so both maps have one key, `:hover` is deleted and `color: red` is never rendered | delete the key only when no static style is left under it, as the comment on lines 32-33 says | high, not executed | Scenarios.AsWrittenLosesStaticStyle | Scenarios.CorrectedKeepsStaticStyle |
| modules/core/renderer.js:73 | a media query nested in another gets `' and'` followed by its own condition only | `{'@media (min-width: 100px)': {'@media (max-width: 200px)': {color: 'red'}}}`: the inner rule's condition is ` and (max-width: 200px)` | the outer condition, then ` and`, then the inner one, as the comment on line 72 says | high, not executed | Scenarios.AsWrittenDropsOuterMedia | Scenarios.CorrectedCompoundsMedia |

`Scenarios.HoverFocusLosesColor` is the first row's input itself. The corrected halves are general, too. `Extraction.CorrectedKeepsStaticLeaves` shows that with the corrected line 34 no static style is lost, for any input. `SpecialRendering.NewMedia` shows that with the corrected line 73 every nested condition starts with the enclosing one. The rest of the model takes `Variant` as a parameter, so every other property holds for both readings.

=== FILE: context.dfy ===
/**
 What the renderer takes from outside: the collaborators it imports but whose
 code is not part of this model (`isPseudo`, `isMediaQuery`,
 `sortPseudoClasses`, `generateClassName`), and the calls it makes on the
 global `StyleContainer`, which are recorded in a log instead of performed.
 */
module Context {

  import opened Styles

  /** The imported collaborators, left uninterpreted. `order` is
      `keys.sort(sortPseudoClasses)`: the only thing known of it is that a
      JavaScript sort returns a permutation of what it sorts. */
  datatype Env = Env(
    isPseudo: string -> bool,
    isMedia: string -> bool,
    order: seq<string> -> seq<string>,
    className: StyleMap -> string)

  ghost predicate OrdersByPermutation(env: Env) {
    forall ks: seq<string> :: multiset(env.order(ks)) == multiset(ks)
  }

  /** A key the renderer descends into: a pseudo-class or a media query. */
  predicate IsSpecial(env: Env, k: string) {
    env.isPseudo(k) || env.isMedia(k)
  }

  /** One call on the style container. `Add` is `StyleContainer.add`, whose
      media argument is absent (`None`) when the base styles are added;
      `AddDynamic` is `StyleContainer.addDynamic`. */
  datatype Call =
    | Add(selector: string, styles: StyleMap, media: Option<string>)
    | AddDynamic(className: string, styles: StyleMap)

  /** Which reading of the two defective lines of the renderer is followed:
      the code as written, or the evident intent (see `Prunes` and `NewMedia`). */
  datatype Variant = AsWritten | Corrected

  /** The extractor calls `Object.keys` on the value of every pseudo-class or
      media-query key it descends into, which throws for `null`; this holds of
      the maps on which it does not. */
  predicate ExtractSafe(env: Env, m: StyleMap)
    decreases m
  {
    forall i :: 0 <= i < |m| ==> ExtractSafeEntry(env, m[i].key, m[i].value)
  }

  predicate ExtractSafeEntry(env: Env, k: string, v: Value)
    decreases v
  {
    IsSpecial(env, k) ==>
      match v
      case Null => false
      case Obj(entries) => ExtractSafe(env, entries)
      case _ => true
  }

  /** The same for the special-style renderer, which also descends into arrays
      held by pseudo-class and media-query keys. */
  predicate RenderSafe(env: Env, m: StyleMap)
    decreases m
  {
    forall i :: 0 <= i < |m| ==> RenderSafeEntry(env, m[i].key, m[i].value)
  }

  predicate RenderSafeEntry(env: Env, k: string, v: Value)
    decreases v
  {
    IsSpecial(env, k) ==>
      match v
      case Null => false
      case Obj(entries) => RenderSafe(env, entries)
      case Arr(items) => forall j :: 0 <= j < |items| ==> RenderSafeEntry(env, Text.Decimal(j), items[j])
      case _ => true
  }

  lemma RenderSafeView(env: Env, k: string, v: Value)
    requires RenderSafeEntry(env, k, v) && IsSpecial(env, k)
    ensures v != Null
    ensures RenderSafe(env, View(v))
  {
  }

  lemma RenderSafeIsExtractSafe(env: Env, m: StyleMap)
    requires RenderSafe(env, m)
    ensures ExtractSafe(env, m)
  {
  }

  lemma RenderSafeSingleton(env: Env, k: string, v: Value)
    requires RenderSafeEntry(env, k, v)
    ensures RenderSafe(env, [Entry(k, v)])
  {
  }
}

=== FILE: extraction.dfy ===
/**
 `extractDynamicStyles` (modules/core/renderer.js, lines 12-52). The source
 walks the keys of a style object once, deletes every dynamic entry from it in
 place and collects those entries in a new object. Keys are snapshotted by
 `Object.keys` before any deletion and the input is a tree, so the in-place
 mutation is the same as splitting the map into a static remainder and a
 dynamic part, which is what `Extract` returns.
 */
module Extraction {

  import opened Styles
  import opened Context

  datatype Split = Split(remaining: StyleMap, dynamic: StyleMap)

  /** What is left once extraction is done: no function and no opaque object
      (`null`, or an object under an ordinary key) at any depth reached through
      pseudo-class and media-query keys. */
  predicate Clean(env: Env, m: StyleMap) {
    forall i :: 0 <= i < |m| ==>
      match m[i].value
      case Fn(_) => false
      case Null => false
      case Obj(entries) => IsSpecial(env, m[i].key) && Clean(env, entries)
      case _ => true
  }

  /** What the dynamic part may hold: functions, opaque objects under ordinary
      keys, and non-empty pseudo-class or media-query sub-maps of the same
      kind; never a primitive or an array at a level reached through
      pseudo-class and media-query keys. */
  predicate DynamicOnly(env: Env, m: StyleMap) {
    forall i :: 0 <= i < |m| ==>
      match m[i].value
      case Fn(_) => true
      case Null => !IsSpecial(env, m[i].key)
      case Obj(entries) => !IsSpecial(env, m[i].key) || (entries != [] && DynamicOnly(env, entries))
      case _ => false
  }

  /** Whether a pseudo-class or media-query key is deleted from the static map
      once its sub-map `sub` has been split into `inner`. As written (line 34)
      the key goes when the dynamic part has as many keys as the sub-map had;
      the intent stated by the comment above that line is that it goes when no
      static style is left under it. The two differ when a nested sub-map is
      itself only partly dynamic. */
  predicate Prunes(variant: Variant, inner: Split, sub: StyleMap) {
    match variant
    case AsWritten => |inner.dynamic| == |sub|
    case Corrected => inner.remaining == []
  }

  /** `extractDynamicStyles(m)`: the map `m` is left holding `remaining` and
      the call returns `dynamic`. */
  function Extract(env: Env, variant: Variant, m: StyleMap): (r: Split)
    requires WellFormed(m) && ExtractSafe(env, m)
    ensures forall k :: k in Keys(r.remaining) ==> k in Keys(m)
    ensures forall k :: k in Keys(r.dynamic) ==> k in Keys(m)
    ensures WellFormed(r.remaining) && WellFormed(r.dynamic)
    decreases m
  {
    if m == [] then Split([], [])
    else
      WellFormedUncons(m);
      assert ExtractSafe(env, m[1..]) by {
        assert forall j :: 0 <= j < |m| - 1 ==> m[1..][j] == m[j + 1];
      }
      var head := ExtractEntry(env, variant, m[0]);
      var rest := Extract(env, variant, m[1..]);
      WellFormedAppend(head.remaining, rest.remaining);
      WellFormedAppend(head.dynamic, rest.dynamic);
      Split(head.remaining + rest.remaining, head.dynamic + rest.dynamic)
  }

  /** One step of the `reduce` callback (lines 14-50), for the entry `e`. */
  function ExtractEntry(env: Env, variant: Variant, e: Entry): (r: Split)
    requires WellFormedValue(e.value) && ExtractSafeEntry(env, e.key, e.value)
    ensures |r.remaining| <= 1 && |r.dynamic| <= 1
    ensures forall k :: k in Keys(r.remaining) ==> k == e.key
    ensures forall k :: k in Keys(r.dynamic) ==> k == e.key
    ensures WellFormed(r.remaining) && WellFormed(r.dynamic)
    decreases e
  {
    match e.value
    case Prim(_) => Singleton(e.key, e.value); Split([e], [])
    case Arr(_) => Singleton(e.key, e.value); Split([e], [])
    case Fn(_) => Singleton(e.key, e.value); Split([], [e])
    case Null => Singleton(e.key, e.value); Split([], [e])
    case Obj(sub) =>
      if IsSpecial(env, e.key) then
        var inner := Extract(env, variant, sub);
        Singleton(e.key, Obj(inner.remaining));
        Singleton(e.key, Obj(inner.dynamic));
        Split(
          if Prunes(variant, inner, sub) then [] else [Entry(e.key, Obj(inner.remaining))],
          if |inner.dynamic| > 0 then [Entry(e.key, Obj(inner.dynamic))] else [])
      else
        Singleton(e.key, e.value);
        Split([], [e])
  }

  /** `Extract` on a non-empty map, one step unfolded: the split of the first
      entry followed by the split of the rest. */
  lemma ExtractUnfold(env: Env, variant: Variant, m: StyleMap)
    requires WellFormed(m) && ExtractSafe(env, m) && m != []
    ensures WellFormedValue(m[0].value) && ExtractSafeEntry(env, m[0].key, m[0].value)
    ensures WellFormed(m[1..]) && ExtractSafe(env, m[1..])
    ensures Keys(m) == [m[0].key] + Keys(m[1..]) && m[0].key !in Keys(m[1..])
    ensures var head, rest := ExtractEntry(env, variant, m[0]), Extract(env, variant, m[1..]);
      Extract(env, variant, m) == Split(head.remaining + rest.remaining, head.dynamic + rest.dynamic)
  {
    WellFormedUncons(m);
    assert ExtractSafe(env, m[1..]) by {
      assert forall j :: 0 <= j < |m| - 1 ==> m[1..][j] == m[j + 1];
    }
  }

  /** Extraction handles each key on its own: what it leaves and reports
      under the key of entry `i` is what the step for that entry produces. */
  lemma {:induction false} ExtractLocates(env: Env, variant: Variant, m: StyleMap, i: int)
    requires WellFormed(m) && ExtractSafe(env, m) && 0 <= i < |m|
    ensures WellFormedValue(m[i].value) && ExtractSafeEntry(env, m[i].key, m[i].value)
    ensures var r, step := Extract(env, variant, m), ExtractEntry(env, variant, m[i]);
      && Find(r.remaining, m[i].key) == Find(step.remaining, m[i].key)
      && Find(r.dynamic, m[i].key) == Find(step.dynamic, m[i].key)
  {
    if i == 0 {
      ExtractLocatesFirst(env, variant, m);
    } else {
      WellFormedUncons(m);
      assert ExtractSafe(env, m[1..]) by {
        assert forall j :: 0 <= j < |m| - 1 ==> m[1..][j] == m[j + 1];
      }
      assert m[1..][i - 1] == m[i];
      ExtractLocates(env, variant, m[1..], i - 1);
      LocateThroughTail(env, variant, m, i, ExtractEntry(env, variant, m[i]));
    }
  }

  /** A key after the first is found where extracting the tail leaves it. */
  lemma LocateThroughTail(env: Env, variant: Variant, m: StyleMap, i: int, step: Split)
    requires WellFormed(m) && ExtractSafe(env, m) && 0 < i < |m|
    requires WellFormed(m[1..]) && ExtractSafe(env, m[1..])
    requires var rest := Extract(env, variant, m[1..]);
      && Find(rest.remaining, m[i].key) == Find(step.remaining, m[i].key)
      && Find(rest.dynamic, m[i].key) == Find(step.dynamic, m[i].key)
    ensures var r := Extract(env, variant, m);
      && Find(r.remaining, m[i].key) == Find(step.remaining, m[i].key)
      && Find(r.dynamic, m[i].key) == Find(step.dynamic, m[i].key)
  {
    ExtractUnfold(env, variant, m);
    var k := m[i].key;
    var head := ExtractEntry(env, variant, m[0]);
    var rest := Extract(env, variant, m[1..]);
    assert m[1..][i - 1] == m[i];
    assert k != m[0].key;
    FindSecondPart(head.remaining, rest.remaining, k);
    FindSecondPart(head.dynamic, rest.dynamic, k);
  }

  lemma ExtractLocatesFirst(env: Env, variant: Variant, m: StyleMap)
    requires WellFormed(m) && ExtractSafe(env, m) && m != []
    ensures WellFormedValue(m[0].value) && ExtractSafeEntry(env, m[0].key, m[0].value)
    ensures var r, step := Extract(env, variant, m), ExtractEntry(env, variant, m[0]);
      && Find(r.remaining, m[0].key) == Find(step.remaining, m[0].key)
      && Find(r.dynamic, m[0].key) == Find(step.dynamic, m[0].key)
  {
    ExtractUnfold(env, variant, m);
    var head := ExtractEntry(env, variant, m[0]);
    var rest := Extract(env, variant, m[1..]);
    FindFirstPart(head.remaining, rest.remaining, m[0].key);
    FindFirstPart(head.dynamic, rest.dynamic, m[0].key);
  }

  /** How extraction treats each key of the map: primitives and arrays stay
      and are not reported; functions and objects under ordinary keys move,
      unchanged, to the dynamic part; a pseudo-class or media-query sub-map is
      split recursively, reported under its key exactly when its dynamic part
      is non-empty, and kept with only its remainder unless `Prunes` says the
      key goes. */
  lemma ExtractPerKey(env: Env, variant: Variant, m: StyleMap, i: int)
    requires WellFormed(m) && ExtractSafe(env, m) && 0 <= i < |m|
    ensures WellFormedValue(m[i].value) && ExtractSafeEntry(env, m[i].key, m[i].value)
    ensures var k, v, r := m[i].key, m[i].value, Extract(env, variant, m);
      && ((v.Prim? || v.Arr?) ==> Find(r.remaining, k) == Some(v) && Find(r.dynamic, k) == None)
      && (v.Fn? ==> Find(r.remaining, k) == None && Find(r.dynamic, k) == Some(v))
      && ((v.Null? || v.Obj?) && !IsSpecial(env, k) ==>
            Find(r.remaining, k) == None && Find(r.dynamic, k) == Some(v))
      && (v.Obj? && IsSpecial(env, k) ==>
            var inner := Extract(env, variant, v.entries);
            && Find(r.dynamic, k) == (if |inner.dynamic| > 0 then Some(Obj(inner.dynamic)) else None)
            && Find(r.remaining, k) == (if Prunes(variant, inner, v.entries) then None else Some(Obj(inner.remaining))))
  {
    ExtractLocates(env, variant, m, i);
  }

  /** The entries of `m` holding a primitive or an array, in order. */
  function Flat(m: StyleMap): (r: StyleMap) {
    if m == [] then []
    else (if m[0].value.Prim? || m[0].value.Arr? then [m[0]] else []) + Flat(m[1..])
  }

  /** `Flat` keeps exactly the primitive and array entries. */
  lemma {:induction false} FlatMembers(m: StyleMap)
    ensures forall e :: e in Flat(m) <==> e in m && (e.value.Prim? || e.value.Arr?)
  {
    if m != [] {
      FlatMembers(m[1..]);
      assert m == [m[0]] + m[1..];
    }
  }

  lemma {:induction false} FlatAppend(a: StyleMap, b: StyleMap)
    ensures Flat(a + b) == Flat(a) + Flat(b)
  {
    if a == [] {
      assert a + b == b;
    } else {
      assert (a + b)[0] == a[0];
      assert (a + b)[1..] == a[1..] + b;
      FlatAppend(a[1..], b);
      var h := if a[0].value.Prim? || a[0].value.Arr? then [a[0]] else [];
      calc {
        Flat(a + b);
        h + Flat(a[1..] + b);
        h + (Flat(a[1..]) + Flat(b));
        (h + Flat(a[1..])) + Flat(b);
      }
    }
  }

  /** Extraction leaves the flat styles of a map exactly as they were: the same
      entries, unchanged, in the same order. */
  lemma {:induction false} ExtractKeepsFlat(env: Env, variant: Variant, m: StyleMap)
    requires WellFormed(m) && ExtractSafe(env, m)
    ensures Flat(Extract(env, variant, m).remaining) == Flat(m)
    decreases m
  {
    if m != [] {
      ExtractUnfold(env, variant, m);
      var head := ExtractEntry(env, variant, m[0]);
      var rest := Extract(env, variant, m[1..]);
      ExtractKeepsFlat(env, variant, m[1..]);
      StepKeepsFlat(env, variant, m[0]);
      FlatJoin(head.remaining, rest.remaining, m);
    }
  }

  lemma FlatJoin(a: StyleMap, b: StyleMap, m: StyleMap)
    requires m != [] && Flat(a) == Flat([m[0]]) && Flat(b) == Flat(m[1..])
    ensures Flat(a + b) == Flat(m)
  {
    FlatAppend(a, b);
    assert m == [m[0]] + m[1..];
    FlatAppend([m[0]], m[1..]);
  }

  lemma StepKeepsFlat(env: Env, variant: Variant, e: Entry)
    requires WellFormedValue(e.value) && ExtractSafeEntry(env, e.key, e.value)
    ensures Flat(ExtractEntry(env, variant, e).remaining) == Flat([e])
  {
    var r := ExtractEntry(env, variant, e).remaining;
    assert Flat([e]) == (if e.value.Prim? || e.value.Arr? then [e] else []) + Flat([]);
    if r != [] {
      assert r[1..] == [];
      assert Flat(r) == (if r[0].value.Prim? || r[0].value.Arr? then [r[0]] else []) + Flat([]);
    }
  }

  lemma CleanAppend(env: Env, a: StyleMap, b: StyleMap)
    requires Clean(env, a) && Clean(env, b)
    ensures Clean(env, a + b)
  {
    assert forall i :: 0 <= i < |a + b| ==> (a + b)[i] == if i < |a| then a[i] else b[i - |a|];
  }

  lemma DynamicOnlyAppend(env: Env, a: StyleMap, b: StyleMap)
    requires DynamicOnly(env, a) && DynamicOnly(env, b)
    ensures DynamicOnly(env, a + b)
  {
    assert forall i :: 0 <= i < |a + b| ==> (a + b)[i] == if i < |a| then a[i] else b[i - |a|];
  }

  /** After extraction the remainder is clean and the dynamic part holds only
      dynamic styles: the two parts are of complementary kinds. */
  lemma {:induction false} ExtractSeparates(env: Env, variant: Variant, m: StyleMap)
    requires WellFormed(m) && ExtractSafe(env, m)
    ensures Clean(env, Extract(env, variant, m).remaining)
    ensures DynamicOnly(env, Extract(env, variant, m).dynamic)
    decreases m
  {
    if m != [] {
      ExtractUnfold(env, variant, m);
      var head := ExtractEntry(env, variant, m[0]);
      var rest := Extract(env, variant, m[1..]);
      StepSeparates(env, variant, m[0]);
      ExtractSeparates(env, variant, m[1..]);
      CleanAppend(env, head.remaining, rest.remaining);
      DynamicOnlyAppend(env, head.dynamic, rest.dynamic);
    }
  }

  lemma {:induction false} StepSeparates(env: Env, variant: Variant, e: Entry)
    requires WellFormedValue(e.value) && ExtractSafeEntry(env, e.key, e.value)
    ensures Clean(env, ExtractEntry(env, variant, e).remaining)
    ensures DynamicOnly(env, ExtractEntry(env, variant, e).dynamic)
    decreases e
  {
    match e.value
    case Obj(sub) =>
      if IsSpecial(env, e.key) {
        ExtractSeparates(env, variant, sub);
        var inner := Extract(env, variant, sub);
        assert |inner.dynamic| > 0 ==> inner.dynamic != [];
      }
    case _ =>
  }

  lemma RenderSafeAppend(env: Env, a: StyleMap, b: StyleMap)
    requires RenderSafe(env, a) && RenderSafe(env, b)
    ensures RenderSafe(env, a + b)
  {
    assert forall i :: 0 <= i < |a + b| ==> (a + b)[i] == if i < |a| then a[i] else b[i - |a|];
  }

  /** What the special-style renderer may safely descend into stays safe
      after extraction. */
  lemma {:induction false} ExtractKeepsRenderSafe(env: Env, variant: Variant, m: StyleMap)
    requires WellFormed(m) && ExtractSafe(env, m) && RenderSafe(env, m)
    ensures RenderSafe(env, Extract(env, variant, m).remaining)
    decreases m
  {
    if m != [] {
      ExtractUnfold(env, variant, m);
      assert RenderSafe(env, m[1..]) by {
        assert forall j :: 0 <= j < |m| - 1 ==> m[1..][j] == m[j + 1];
      }
      var head := ExtractEntry(env, variant, m[0]);
      var rest := Extract(env, variant, m[1..]);
      StepKeepsRenderSafe(env, variant, m[0]);
      ExtractKeepsRenderSafe(env, variant, m[1..]);
      RenderSafeAppend(env, head.remaining, rest.remaining);
    }
  }

  lemma {:induction false} StepKeepsRenderSafe(env: Env, variant: Variant, e: Entry)
    requires WellFormedValue(e.value) && ExtractSafeEntry(env, e.key, e.value)
    requires RenderSafeEntry(env, e.key, e.value)
    ensures RenderSafe(env, ExtractEntry(env, variant, e).remaining)
    decreases e
  {
    var r := ExtractEntry(env, variant, e);
    if e.value.Obj? && IsSpecial(env, e.key) {
      var inner := Extract(env, variant, e.value.entries);
      ExtractKeepsRenderSafe(env, variant, e.value.entries);
      RenderSafeSingleton(env, e.key, Obj(inner.remaining));
      assert r.remaining == [] || r.remaining == [Entry(e.key, Obj(inner.remaining))];
    } else {
      RenderSafeSingleton(env, e.key, e.value);
      assert r.remaining == [] || r.remaining == [e];
    }
  }

  /** A map that is already clean holds nothing dynamic: a second extraction
      reports nothing. */
  lemma {:induction false} CleanHasNothingDynamic(env: Env, variant: Variant, m: StyleMap)
    requires WellFormed(m) && ExtractSafe(env, m) && Clean(env, m)
    ensures Extract(env, variant, m).dynamic == []
    decreases m
  {
    if m != [] {
      CleanHasNothingDynamic(env, variant, m[1..]);
      match m[0].value
      case Obj(sub) =>
        assert ExtractSafe(env, sub);
        CleanHasNothingDynamic(env, variant, sub);
      case _ =>
    }
  }

  lemma CleanIsExtractSafe(env: Env, m: StyleMap)
    requires Clean(env, m)
    ensures ExtractSafe(env, m)
  {
  }

  /** Nothing dynamic survives extraction, at any depth: extracting again from
      what is left yields an empty dynamic part. */
  lemma SecondPassFindsNothing(env: Env, variant: Variant, m: StyleMap)
    requires WellFormed(m) && ExtractSafe(env, m)
    ensures var left := Extract(env, variant, m).remaining;
      ExtractSafe(env, left) && Extract(env, variant, left).dynamic == []
  {
    var left := Extract(env, variant, m).remaining;
    ExtractSeparates(env, variant, m);
    CleanIsExtractSafe(env, left);
    CleanHasNothingDynamic(env, variant, left);
  }

  /** The entries of `m` holding a function, in order. */
  function Functions(m: StyleMap): (r: StyleMap) {
    if m == [] then []
    else (if m[0].value.Fn? then [m[0]] else []) + Functions(m[1..])
  }

  /** On a map with no nested objects, extraction is exactly the split into
      its flat styles and its functions; in particular a map of flat styles
      only is left untouched and yields nothing dynamic. */
  lemma {:induction false} ShallowSplit(env: Env, variant: Variant, m: StyleMap)
    requires WellFormed(m)
    requires forall i :: 0 <= i < |m| ==> m[i].value.Prim? || m[i].value.Arr? || m[i].value.Fn?
    ensures ExtractSafe(env, m)
    ensures Extract(env, variant, m) == Split(Flat(m), Functions(m))
    decreases m
  {
    assert ExtractSafe(env, m);
    if m != [] {
      WellFormedUncons(m);
      assert forall j :: 0 <= j < |m| - 1 ==> m[1..][j] == m[j + 1];
      ShallowSplit(env, variant, m[1..]);
      ShallowStep(env, variant, m);
    }
  }

  lemma ShallowStep(env: Env, variant: Variant, m: StyleMap)
    requires WellFormed(m) && ExtractSafe(env, m) && m != []
    requires m[0].value.Prim? || m[0].value.Arr? || m[0].value.Fn?
    requires WellFormed(m[1..]) && ExtractSafe(env, m[1..])
    requires Extract(env, variant, m[1..]) == Split(Flat(m[1..]), Functions(m[1..]))
    ensures Extract(env, variant, m) == Split(Flat(m), Functions(m))
  {
    ExtractUnfold(env, variant, m);
    var e := m[0];
    if e.value.Fn? {
      assert ExtractEntry(env, variant, e) == Split([], [e]);
    } else {
      assert ExtractEntry(env, variant, e) == Split([e], []);
    }
  }

  /** A path of keys leading, through pseudo-class and media-query sub-maps,
      to a flat style value: a rule the renderer will eventually emit. */
  predicate StaticLeaf(env: Env, m: StyleMap, path: seq<string>, v: Value)
    decreases |path|
  {
    && |path| > 0
    && match Find(m, path[0])
       case None => false
       case Some(x) =>
         if |path| == 1 then (x.Prim? || x.Arr?) && x == v
         else IsSpecial(env, path[0]) && x.Obj? && StaticLeaf(env, x.entries, path[1..], v)
  }

  /** Extraction never invents a static style: every flat style left in the
      remainder was in the input at the same path. */
  lemma {:induction false} ExtractInventsNoStaticLeaf(env: Env, variant: Variant, m: StyleMap, path: seq<string>, v: Value)
    requires WellFormed(m) && ExtractSafe(env, m)
    requires StaticLeaf(env, Extract(env, variant, m).remaining, path, v)
    ensures StaticLeaf(env, m, path, v)
    decreases |path|
  {
    var k := path[0];
    assert k in Keys(m);
    var x := Get(m, k);
    var step := RemainingAt(env, variant, m, k);
    if |path| > 1 && x.Obj? && IsSpecial(env, k) {
      ExtractInventsNoStaticLeaf(env, variant, x.entries, path[1..], v);
    }
  }

  /** With the corrected pruning rule no static style is lost: every flat style
      of the input is still in the remainder at the same path. */
  lemma {:induction false} CorrectedKeepsStaticLeaves(env: Env, m: StyleMap, path: seq<string>, v: Value)
    requires WellFormed(m) && ExtractSafe(env, m)
    requires StaticLeaf(env, m, path, v)
    ensures StaticLeaf(env, Extract(env, Corrected, m).remaining, path, v)
    decreases |path|
  {
    var k := path[0];
    var x := Get(m, k);
    var step := RemainingAt(env, Corrected, m, k);
    if |path| > 1 {
      CorrectedKeepsStaticLeaves(env, x.entries, path[1..], v);
      assert Extract(env, Corrected, x.entries).remaining != [];
    }
  }

  /** What extraction leaves under the key `k` of `m`, as the step for that
      key decides it. */
  lemma RemainingAt(env: Env, variant: Variant, m: StyleMap, k: string) returns (step: Split)
    requires WellFormed(m) && ExtractSafe(env, m) && k in Keys(m)
    ensures WellFormedValue(Get(m, k)) && ExtractSafeEntry(env, k, Get(m, k))
    ensures step == ExtractEntry(env, variant, Entry(k, Get(m, k)))
    ensures Find(Extract(env, variant, m).remaining, k) == Find(step.remaining, k)
    ensures (Get(m, k).Prim? || Get(m, k).Arr?) ==> step.remaining == [Entry(k, Get(m, k))]
    ensures Get(m, k).Obj? && IsSpecial(env, k) ==>
      var inner := Extract(env, variant, Get(m, k).entries);
      step.remaining == if Prunes(variant, inner, Get(m, k).entries) then [] else [Entry(k, Obj(inner.remaining))]
  {
    var i :| 0 <= i < |m| && m[i] == Entry(k, Get(m, k));
    ExtractLocates(env, variant, m, i);
    step := ExtractEntry(env, variant, m[i]);
  }

  /** Whether `m` holds anything dynamic, found by looking rather than by
      extracting: a function or an opaque object at a depth reached through
      pseudo-class and media-query keys. */
  predicate HasDynamic(env: Env, m: StyleMap)
    decreases m
  {
    exists i :: 0 <= i < |m| && EntryHasDynamic(env, m[i].key, m[i].value)
  }

  predicate EntryHasDynamic(env: Env, k: string, v: Value)
    decreases v
  {
    match v
    case Fn(_) => true
    case Null => !IsSpecial(env, k)
    case Obj(entries) => !IsSpecial(env, k) || HasDynamic(env, entries)
    case _ => false
  }

  /** Extraction reports something exactly when there is something dynamic
      in the map. */
  lemma {:induction false} ExtractReportsIffDynamic(env: Env, variant: Variant, m: StyleMap)
    requires WellFormed(m) && ExtractSafe(env, m)
    ensures |Extract(env, variant, m).dynamic| > 0 <==> HasDynamic(env, m)
    decreases m
  {
    if m == [] {
    } else {
      ExtractUnfold(env, variant, m);
      var head := ExtractEntry(env, variant, m[0]);
      var rest := Extract(env, variant, m[1..]);
      ExtractReportsIffDynamic(env, variant, m[1..]);
      StepReportsIffDynamic(env, variant, m[0]);
      assert HasDynamic(env, m) <==> EntryHasDynamic(env, m[0].key, m[0].value) || HasDynamic(env, m[1..]) by {
        if HasDynamic(env, m[1..]) {
          var i :| 0 <= i < |m| - 1 && EntryHasDynamic(env, m[1..][i].key, m[1..][i].value);
          assert m[1..][i] == m[i + 1];
        }
        if HasDynamic(env, m) && !EntryHasDynamic(env, m[0].key, m[0].value) {
          var i :| 0 <= i < |m| && EntryHasDynamic(env, m[i].key, m[i].value);
          assert m[i] == m[1..][i - 1];
        }
      }
    }
  }

  lemma {:induction false} StepReportsIffDynamic(env: Env, variant: Variant, e: Entry)
    requires WellFormedValue(e.value) && ExtractSafeEntry(env, e.key, e.value)
    ensures |ExtractEntry(env, variant, e).dynamic| > 0 <==> EntryHasDynamic(env, e.key, e.value)
    decreases e
  {
    match e.value
    case Obj(sub) =>
      if IsSpecial(env, e.key) {
        ExtractReportsIffDynamic(env, variant, sub);
      }
    case _ =>
  }
}

=== FILE: scenarios.dfy ===
/**
 Worked inputs for the renderer, with collaborators as the library's own
 helpers behave on them: a pseudo-class key starts with `:`, a media-query
 key starts with `@media`, the sort leaves these keys in place and the class
 name generator is left abstract (`hash`).
 */
module Scenarios {

  import opened Text
  import opened Styles
  import opened Context
  import opened Extraction
  import opened SpecialRendering
  import opened StaticRendering

  function Sample(hash: StyleMap -> string): (env: Env) {
    Env(k => |k| > 0 && k[0] == ':', k => StartsWith(k, MediaMarker), ks => ks, hash)
  }

  /** Extraction of a map of one entry is the step for that entry. */
  lemma LoneExtract(env: Env, variant: Variant, e: Entry)
    requires WellFormedValue(e.value) && ExtractSafeEntry(env, e.key, e.value)
    ensures WellFormed([e]) && ExtractSafe(env, [e])
    ensures Extract(env, variant, [e]) == ExtractEntry(env, variant, e)
  {
    Singleton(e.key, e.value);
    ExtractUnfold(env, variant, [e]);
    assert [e][1..] == [];
    var step := ExtractEntry(env, variant, e);
    assert step.remaining + [] == step.remaining && step.dynamic + [] == step.dynamic;
  }

  /** Extraction of a map of two entries joins the steps for both. */
  lemma PairExtract(env: Env, variant: Variant, x: Entry, y: Entry)
    requires x.key != y.key
    requires WellFormedValue(x.value) && ExtractSafeEntry(env, x.key, x.value)
    requires WellFormedValue(y.value) && ExtractSafeEntry(env, y.key, y.value)
    ensures WellFormed([x, y]) && ExtractSafe(env, [x, y])
    ensures var sx, sy := ExtractEntry(env, variant, x), ExtractEntry(env, variant, y);
      Extract(env, variant, [x, y]) == Split(sx.remaining + sy.remaining, sx.dynamic + sy.dynamic)
  {
    var m := [x, y];
    Singleton(x.key, x.value);
    Singleton(y.key, y.value);
    assert [x] + [y] == m;
    WellFormedAppend([x], [y]);
    assert ExtractSafe(env, m);
    LoneExtract(env, variant, y);
    assert m[1..] == [y];
    ExtractUnfold(env, variant, m);
  }

  /** A flat style `a` next to a function `w`: the style stays, the function
      moves. */
  lemma FlatAndFunction(env: Env, variant: Variant, a: Entry, w: Entry)
    requires a.value.Prim? && w.value.Fn? && a.key != w.key
    ensures WellFormed([a, w]) && ExtractSafe(env, [a, w])
    ensures Extract(env, variant, [a, w]) == Split([a], [w])
  {
    PairExtract(env, variant, a, w);
    assert ExtractEntry(env, variant, a) == Split([a], []);
    assert ExtractEntry(env, variant, w) == Split([], [w]);
  }

  /** `{h: {g: {a, w}}}`, for instance
      `{':hover': {':focus': {color: 'red', width: fn}}}`: two nested
      pseudo-class or media-query keys over a flat style and a function. */
  function Chain(h: string, g: string, a: Entry, w: Entry): (m: StyleMap) {
    [Entry(h, Obj([Entry(g, Obj([a, w]))]))]
  }

  predicate ChainShaped(env: Env, h: string, g: string, a: Entry, w: Entry) {
    IsSpecial(env, h) && IsSpecial(env, g) && a.value.Prim? && w.value.Fn? && a.key != w.key
  }

  /** The inner key `g` keeps the style and reports the function. */
  lemma ChainMiddle(env: Env, variant: Variant, g: string, a: Entry, w: Entry)
    requires IsSpecial(env, g) && a.value.Prim? && w.value.Fn? && a.key != w.key
    ensures WellFormedValue(Obj([a, w])) && ExtractSafeEntry(env, g, Obj([a, w]))
    ensures ExtractEntry(env, variant, Entry(g, Obj([a, w])))
      == Split([Entry(g, Obj([a]))], [Entry(g, Obj([w]))])
  {
    FlatAndFunction(env, variant, a, w);
  }

  /** The whole chain: the function is reported under `h` and `g` in both
      readings; the style under them stays only in the corrected one. */
  lemma ChainSplits(env: Env, variant: Variant, h: string, g: string, a: Entry, w: Entry)
    requires ChainShaped(env, h, g, a, w)
    ensures WellFormed(Chain(h, g, a, w)) && ExtractSafe(env, Chain(h, g, a, w))
    ensures Extract(env, variant, Chain(h, g, a, w)) == Split(
      if variant == AsWritten then [] else [Entry(h, Obj([Entry(g, Obj([a]))]))],
      [Entry(h, Obj([Entry(g, Obj([w]))]))])
  {
    var mid := [Entry(g, Obj([a, w]))];
    ChainMiddle(env, variant, g, a, w);
    LoneExtract(env, variant, mid[0]);
    assert ExtractSafeEntry(env, h, Obj(mid));
    LoneExtract(env, variant, Entry(h, Obj(mid)));
  }

  /** The style `a` is a static leaf of the chain at `h`, `g`, `a.key`. */
  lemma ChainLeaf(env: Env, h: string, g: string, a: Entry, w: Entry)
    requires ChainShaped(env, h, g, a, w)
    ensures StaticLeaf(env, Chain(h, g, a, w), [h, g, a.key], a.value)
  {
    var leaf := [a, w];
    var mid := [Entry(g, Obj(leaf))];
    assert Find(Chain(h, g, a, w), h) == Some(Obj(mid));
    assert Find(mid, g) == Some(Obj(leaf));
    assert Find(leaf, a.key) == Some(a.value);
    var path := [h, g, a.key];
    assert path[1..] == [g, a.key] && path[1..][1..] == [a.key];
  }

  /** As written the extractor deletes `h` from the static map: its one key
      moved to the dynamic map, so the counts compare equal, although the
      static style `a` under `g` was still in it. */
  lemma AsWrittenLosesStaticStyle(env: Env, h: string, g: string, a: Entry, w: Entry)
    requires ChainShaped(env, h, g, a, w)
    ensures WellFormed(Chain(h, g, a, w)) && ExtractSafe(env, Chain(h, g, a, w))
    ensures StaticLeaf(env, Chain(h, g, a, w), [h, g, a.key], a.value)
    ensures Extract(env, AsWritten, Chain(h, g, a, w)).remaining == []
  {
    ChainLeaf(env, h, g, a, w);
    ChainSplits(env, AsWritten, h, g, a, w);
  }

  /** With the corrected rule the same static style stays where it was. */
  lemma CorrectedKeepsStaticStyle(env: Env, h: string, g: string, a: Entry, w: Entry)
    requires ChainShaped(env, h, g, a, w)
    ensures WellFormed(Chain(h, g, a, w)) && ExtractSafe(env, Chain(h, g, a, w))
    ensures StaticLeaf(env, Extract(env, Corrected, Chain(h, g, a, w)).remaining, [h, g, a.key], a.value)
  {
    ChainLeaf(env, h, g, a, w);
    ChainSplits(env, Corrected, h, g, a, w);
    CorrectedKeepsStaticLeaves(env, Chain(h, g, a, w), [h, g, a.key], a.value);
  }

  /** `{':hover': {':focus': {color: 'red', width: fn}}}`: as written,
      `color: red` is a static style of the input that extraction discards. */
  lemma HoverFocusLosesColor(hash: StyleMap -> string)
    ensures var m := [Entry(":hover", Obj([Entry(":focus", Obj([Entry("color", Prim("red")), Entry("width", Fn(0))]))]))];
      && WellFormed(m) && ExtractSafe(Sample(hash), m)
      && StaticLeaf(Sample(hash), m, [":hover", ":focus", "color"], Prim("red"))
      && Extract(Sample(hash), AsWritten, m).remaining == []
  {
    var a, w := Entry("color", Prim("red")), Entry("width", Fn(0));
    assert "color"[0] != "width"[0];
    AsWrittenLosesStaticStyle(Sample(hash), ":hover", ":focus", a, w);
  }

  lemma SampleOrders(hash: StyleMap -> string)
    ensures OrdersByPermutation(Sample(hash))
  {
  }

  /** Rendering a map of one key is rendering that key. */
  lemma SingleKey(hash: StyleMap -> string, variant: Variant, selector: string, k: string, v: Value, pseudo: string, media: string)
    requires WellFormedValue(v) && RenderSafeEntry(Sample(hash), k, v)
    ensures WellFormed([Entry(k, v)]) && RenderSafe(Sample(hash), [Entry(k, v)]) && OrdersByPermutation(Sample(hash))
    ensures RenderSpecial(Sample(hash), variant, selector, [Entry(k, v)], pseudo, media)
      == RenderKey(Sample(hash), variant, selector, k, v, pseudo, media)
  {
    var env := Sample(hash);
    var m := [Entry(k, v)];
    SampleOrders(hash);
    assert Keys(m) == [k];
    assert env.order(Keys(m)) == [k];
    assert Get(m, k) == v;
    var head := RenderKey(env, variant, selector, k, v, pseudo, media);
    assert RenderKeys(env, variant, selector, m, [k], pseudo, media) == Rendered(head.extension + [], head.log + []);
  }

  /** A map holding only the pseudo-class `k` renders the block of `k`. */
  lemma OnePseudoClass(hash: StyleMap -> string, variant: Variant, selector: string, k: string, sub: StyleMap, pseudo: string, media: string)
    requires |k| > 0 && k[0] == ':'
    requires WellFormed(sub) && RenderSafe(Sample(hash), sub)
    ensures WellFormed([Entry(k, Obj(sub))]) && RenderSafe(Sample(hash), [Entry(k, Obj(sub))]) && OrdersByPermutation(Sample(hash))
    ensures var inner := RenderSpecial(Sample(hash), variant, selector, sub, pseudo + k, media);
      RenderSpecial(Sample(hash), variant, selector, [Entry(k, Obj(sub))], pseudo, media)
        == Rendered([], inner.log + [Add("." + selector + pseudo + k, inner.extension, Some(media))])
  {
    var env := Sample(hash);
    assert !StartsWith(k, MediaMarker) by {
      if |MediaMarker| <= |k| {
        assert k[..|MediaMarker|][0] == ':' != MediaMarker[0];
      }
    }
    PseudoKeyRenders(env, variant, selector, k, sub, pseudo, media);
    SingleKey(hash, variant, selector, k, Obj(sub), pseudo, media);
  }

  /** A map holding only the flat style `k: v` renders to that style alone. */
  lemma OneFlatStyle(hash: StyleMap -> string, variant: Variant, selector: string, k: string, v: Value, pseudo: string, media: string)
    requires v.Prim?
    ensures WellFormed([Entry(k, v)]) && RenderSafe(Sample(hash), [Entry(k, v)]) && OrdersByPermutation(Sample(hash))
    ensures RenderSpecial(Sample(hash), variant, selector, [Entry(k, v)], pseudo, media) == Rendered([Entry(k, v)], [])
  {
    SingleKey(hash, variant, selector, k, v, pseudo, media);
  }

  /** Two pseudo-classes nested around one flat style: the style is
      registered for the selector extended by both, then the (empty) flat
      styles of the outer one for the selector extended by it alone. */
  lemma PseudoClassesChain(hash: StyleMap -> string, variant: Variant, selector: string, outer: string, inner: string, e: Entry)
    requires |outer| > 0 && outer[0] == ':' && |inner| > 0 && inner[0] == ':' && e.value.Prim?
    ensures var m := [Entry(outer, Obj([Entry(inner, Obj([e]))]))];
      && WellFormed(m) && RenderSafe(Sample(hash), m) && OrdersByPermutation(Sample(hash))
      && RenderSpecial(Sample(hash), variant, selector, m, "", "").log
        == [Add("." + selector + outer + inner, [e], Some("")), Add("." + selector + outer, [], Some(""))]
  {
    var env, sub := Sample(hash), [Entry(inner, Obj([e]))];
    PseudoAroundFlat(hash, variant, selector, outer, inner, e);
    EmptyPseudo(selector, outer);
    var nested := RenderSpecial(env, variant, selector, sub, outer, "");
    assert RenderSpecial(env, variant, selector, sub, "" + outer, "") == nested;
    OnePseudoClass(hash, variant, selector, outer, sub, "", "");
  }

  /** Any log meeting the contract of `RenderSpecial` on two pseudo-classes
      `:a` then `:b` around a flat style `x` holds the rule `{x}` for
      `'.' + selector + ':a:b'`, the rule of the innermost block. */
  lemma ContractReachesChainLeaf(hash: StyleMap -> string, variant: Variant, selector: string, x: Entry, log: seq<Call>)
    requires x.value.Prim?
    requires RegistersDeep(Sample(hash), variant, log, selector, [Entry(":a", Obj([Entry(":b", Obj([x]))]))], "", "")
    ensures Registers(log, "." + selector + ":a:b", "", [x])
  {
    var env := Sample(hash);
    assert RegistersDeepKey(env, variant, log, selector, ":a", Obj([Entry(":b", Obj([x]))]), "", "");
    assert env.isPseudo(":a") && env.isPseudo(":b");
    assert RegistersDeep(env, variant, log, selector, [Entry(":b", Obj([x]))], "" + ":a", "");
    assert RegistersDeepKey(env, variant, log, selector, ":b", Obj([x]), "" + ":a", "");
    assert "." + selector + ("" + ":a") + ":b" == "." + selector + ":a:b";
  }

  /** Every call of a log meeting the contract of `RenderSpecial` on
      `{'@media c': {':a': {x}}, ':a': {'@media c': {x}}}` is registered
      under the condition ` c` or none: a rule under any other condition is
      owed by no block, although both blocks owe the same rule `.selector:a`
      under ` c`. */
  lemma ContractRejectsStrayCondition(hash: StyleMap -> string, variant: Variant, selector: string, x: Entry, c: Call)
    requires x.value.Prim?
    requires OwedDeep(Sample(hash), variant, c, selector,
      [Entry("@media c", Obj([Entry(":a", Obj([x]))])), Entry(":a", Obj([Entry("@media c", Obj([x]))]))], "", "")
    ensures c.Add? && (c.media == Some(" c") || c.media == Some(""))
  {
    var m := [Entry("@media c", Obj([Entry(":a", Obj([x]))])), Entry(":a", Obj([Entry("@media c", Obj([x]))]))];
    if OwedDeepKey(Sample(hash), variant, c, selector, m[0].key, m[0].value, "", "") {
      MediaThenPseudoOwes(hash, variant, selector, x, c);
    } else {
      assert m[1..] == [m[1]] && m[1..][1..] == [];
      assert !OwedDeep(Sample(hash), variant, c, selector, m[1..][1..], "", "");
      PseudoThenMediaOwes(hash, variant, selector, x, c);
    }
  }

  /** The rules owed by `{'@media c': {':a': x}}`: both are under ` c`. */
  lemma MediaThenPseudoOwes(hash: StyleMap -> string, variant: Variant, selector: string, x: Entry, c: Call)
    requires x.value.Prim?
    requires OwedDeepKey(Sample(hash), variant, c, selector, "@media c", Obj([Entry(":a", Obj([x]))]), "", "")
    ensures c.Add? && c.media == Some(" c")
  {
    var env := Sample(hash);
    assert env.isMedia("@media c") && !env.isPseudo("@media c");
    assert env.isPseudo(":a") && !env.isMedia(":a");
    MediaCondition(variant, "", " c");
    assert MediaMarker + " c" == "@media c";
    assert "" + "" + " c" == " c";
    assert NewMedia(variant, "", "@media c") == " c";
    assert "" + ":a" == ":a";
    assert !OwedDeep(env, variant, c, selector, [x], ":a", " c");
    var sub := [Entry(":a", Obj([x]))];
    assert sub[1..] == [];
    assert OwedByBlock(env, variant, c, selector, sub, "", " c", "." + selector + "");
    if !IsRule(c, "." + selector + "", " c", sub) {
      assert OwedDeep(env, variant, c, selector, sub, "", " c");
      assert !OwedDeep(env, variant, c, selector, sub[1..], "", " c");
      assert OwedDeepKey(env, variant, c, selector, sub[0].key, sub[0].value, "", " c");
      assert OwedByBlock(env, variant, c, selector, [x], ":a", " c", "." + selector + "" + ":a");
    }
  }

  /** The rules owed by `{':a': {'@media c': x}}`: the block's own rule, under
      no condition, and the inner one, under ` c`. */
  lemma PseudoThenMediaOwes(hash: StyleMap -> string, variant: Variant, selector: string, x: Entry, c: Call)
    requires x.value.Prim?
    requires OwedDeepKey(Sample(hash), variant, c, selector, ":a", Obj([Entry("@media c", Obj([x]))]), "", "")
    ensures c.Add? && (c.media == Some(" c") || c.media == Some(""))
  {
    var env := Sample(hash);
    assert env.isMedia("@media c") && !env.isPseudo("@media c");
    assert env.isPseudo(":a") && !env.isMedia(":a");
    MediaCondition(variant, "", " c");
    assert MediaMarker + " c" == "@media c";
    assert "" + "" + " c" == " c";
    assert NewMedia(variant, "", "@media c") == " c";
    assert "" + ":a" == ":a";
    assert !OwedDeep(env, variant, c, selector, [x], ":a", " c");
    var sub := [Entry("@media c", Obj([x]))];
    assert sub[1..] == [];
    assert OwedByBlock(env, variant, c, selector, sub, ":a", "", "." + selector + "" + ":a");
    if !IsRule(c, "." + selector + "" + ":a", "", sub) {
      assert OwedDeep(env, variant, c, selector, sub, ":a", "");
      assert !OwedDeep(env, variant, c, selector, sub[1..], ":a", "");
      assert OwedDeepKey(env, variant, c, selector, sub[0].key, sub[0].value, ":a", "");
      assert OwedByBlock(env, variant, c, selector, [x], ":a", " c", "." + selector + ":a");
    }
  }

  /** Appending a pseudo-class to an empty chain. */
  lemma EmptyPseudo(selector: string, k: string)
    ensures "" + k == k && "." + selector + "" + k == "." + selector + k
  {
    assert "." + selector + "" == "." + selector;
  }

  /** The inner level of `PseudoClassesChain`. */
  lemma PseudoAroundFlat(hash: StyleMap -> string, variant: Variant, selector: string, outer: string, inner: string, e: Entry)
    requires |inner| > 0 && inner[0] == ':' && e.value.Prim?
    ensures var sub := [Entry(inner, Obj([e]))];
      && WellFormed(sub) && RenderSafe(Sample(hash), sub) && OrdersByPermutation(Sample(hash))
      && RenderSpecial(Sample(hash), variant, selector, sub, outer, "")
        == Rendered([], [Add("." + selector + outer + inner, [e], Some(""))])
  {
    OneFlatStyle(hash, variant, selector, e.key, e.value, outer + inner, "");
    OnePseudoClass(hash, variant, selector, inner, [e], outer, "");
  }

  /** A map holding only the media query `k` renders the block of `k`. */
  lemma OneMediaQuery(hash: StyleMap -> string, variant: Variant, selector: string, k: string, sub: StyleMap, pseudo: string, media: string)
    requires StartsWith(k, MediaMarker)
    requires WellFormed(sub) && RenderSafe(Sample(hash), sub)
    ensures WellFormed([Entry(k, Obj(sub))]) && RenderSafe(Sample(hash), [Entry(k, Obj(sub))]) && OrdersByPermutation(Sample(hash))
    ensures var inner := RenderSpecial(Sample(hash), variant, selector, sub, pseudo, NewMedia(variant, media, k));
      RenderSpecial(Sample(hash), variant, selector, [Entry(k, Obj(sub))], pseudo, media)
        == Rendered([], inner.log + [Add("." + selector + pseudo, inner.extension, Some(NewMedia(variant, media, k)))])
  {
    var env := Sample(hash);
    assert k[..|MediaMarker|][0] == '@';
    MediaKeyRenders(env, variant, selector, k, sub, pseudo, media);
    SingleKey(hash, variant, selector, k, Obj(sub), pseudo, media);
  }

  /** The inner level of `MediaQueriesNest`. */
  lemma MediaAroundFlat(hash: StyleMap -> string, variant: Variant, selector: string, media: string, inner: string, e: Entry)
    requires StartsWith(inner, MediaMarker) && e.value.Prim?
    ensures var sub := [Entry(inner, Obj([e]))];
      && WellFormed(sub) && RenderSafe(Sample(hash), sub) && OrdersByPermutation(Sample(hash))
      && RenderSpecial(Sample(hash), variant, selector, sub, "", media)
        == Rendered([], [Add("." + selector, [e], Some(NewMedia(variant, media, inner)))])
  {
    OneFlatStyle(hash, variant, selector, e.key, e.value, "", NewMedia(variant, media, inner));
    OneMediaQuery(hash, variant, selector, inner, [e], "", media);
    EmptyPseudo(selector, "");
  }

  /** Two media queries nested around one flat style: the style is
      registered for the selector under the condition built for the inner
      query inside the outer one, then the (empty) flat styles of the outer
      query under its own condition. */
  lemma MediaQueriesNest(hash: StyleMap -> string, variant: Variant, selector: string, outer: string, inner: string, e: Entry)
    requires StartsWith(outer, MediaMarker) && StartsWith(inner, MediaMarker) && e.value.Prim?
    ensures var m := [Entry(outer, Obj([Entry(inner, Obj([e]))]))];
      && WellFormed(m) && RenderSafe(Sample(hash), m) && OrdersByPermutation(Sample(hash))
      && RenderSpecial(Sample(hash), variant, selector, m, "", "").log
        == [Add("." + selector, [e], Some(NewMedia(variant, NewMedia(variant, "", outer), inner))),
            Add("." + selector, [], Some(NewMedia(variant, "", outer)))]
  {
    var sub := [Entry(inner, Obj([e]))];
    MediaAroundFlat(hash, variant, selector, NewMedia(variant, "", outer), inner, e);
    OneMediaQuery(hash, variant, selector, outer, sub, "", "");
    EmptyPseudo(selector, "");
  }

  /** The condition built for the media query `@media` + `c` inside the
      condition `media`. */
  lemma MediaCondition(variant: Variant, media: string, c: string)
    ensures NewMedia(variant, media, MediaMarker + c)
      == (if variant == Corrected then media else "") + (if media != "" then " and" else "") + c
  {
    var key := MediaMarker + c;
    assert key[..|MediaMarker|] == MediaMarker;
    assert key[|MediaMarker|..] == c;
  }

  /** Two media queries `@media` + `c1` and `@media` + `c2` nested around one
      flat style. */
  lemma MediaConditionsNest(hash: StyleMap -> string, variant: Variant, selector: string, c1: string, c2: string, e: Entry)
    requires c1 != "" && e.value.Prim?
    ensures var m := [Entry(MediaMarker + c1, Obj([Entry(MediaMarker + c2, Obj([e]))]))];
      && WellFormed(m) && RenderSafe(Sample(hash), m) && OrdersByPermutation(Sample(hash))
      && RenderSpecial(Sample(hash), variant, selector, m, "", "").log
        == [Add("." + selector, [e], Some(if variant == Corrected then c1 + " and" + c2 else " and" + c2)),
            Add("." + selector, [], Some(c1))]
  {
    StartsWithAppend(MediaMarker, c1);
    StartsWithAppend(MediaMarker, c2);
    MediaQueriesNest(hash, variant, selector, MediaMarker + c1, MediaMarker + c2, e);
    NestedConditions(variant, c1, c2);
  }

  /** The two conditions built for `@media` + `c2` inside `@media` + `c1`. */
  lemma NestedConditions(variant: Variant, c1: string, c2: string)
    requires c1 != ""
    ensures NewMedia(variant, "", MediaMarker + c1) == c1
    ensures NewMedia(variant, c1, MediaMarker + c2) == if variant == Corrected then c1 + " and" + c2 else " and" + c2
  {
    MediaCondition(variant, "", c1);
    assert "" + "" + c1 == c1;
    MediaCondition(variant, c1, c2);
    assert "" + " and" + c2 == " and" + c2;
  }

  /** As written, the rule for `@media` + `c2` nested in `@media` + `c1` gets
      the condition ` and` + `c2`: the outer condition `c1` is dropped. For
      `(min-width: 100px)` around `(max-width: 200px)` it is
      ` and (max-width: 200px)`. */
  lemma AsWrittenDropsOuterMedia(hash: StyleMap -> string, selector: string, c1: string, c2: string, e: Entry)
    requires c1 != "" && e.value.Prim?
    ensures var m := [Entry(MediaMarker + c1, Obj([Entry(MediaMarker + c2, Obj([e]))]))];
      && WellFormed(m) && RenderSafe(Sample(hash), m) && OrdersByPermutation(Sample(hash))
      && RenderSpecial(Sample(hash), AsWritten, selector, m, "", "").log[0] == Add("." + selector, [e], Some(" and" + c2))
  {
    MediaConditionsNest(hash, AsWritten, selector, c1, c2, e);
  }

  /** Corrected, the same rule gets the compound condition `c1` + ` and` +
      `c2`: ` (min-width: 100px) and (max-width: 200px)` in the same example. */
  lemma CorrectedCompoundsMedia(hash: StyleMap -> string, selector: string, c1: string, c2: string, e: Entry)
    requires c1 != "" && e.value.Prim?
    ensures var m := [Entry(MediaMarker + c1, Obj([Entry(MediaMarker + c2, Obj([e]))]))];
      && WellFormed(m) && RenderSafe(Sample(hash), m) && OrdersByPermutation(Sample(hash))
      && RenderSpecial(Sample(hash), Corrected, selector, m, "", "").log[0] == Add("." + selector, [e], Some(c1 + " and" + c2))
  {
    MediaConditionsNest(hash, Corrected, selector, c1, c2, e);
  }

  /** `{color: 'red', ':hover': {color: 'blue'}, width: fn}`, with the keys and
      values as parameters: a flat style `a`, a pseudo-class `h` holding the
      flat style `b`, and a function `f`. */
  predicate ButtonShaped(a: Entry, h: string, b: Entry, f: Entry) {
    && a.value.Prim? && b.value.Prim? && f.value.Fn?
    && |h| > 0 && h[0] == ':'
    && a.key != h && a.key != f.key && h != f.key
  }

  function ButtonOf(a: Entry, h: string, b: Entry, f: Entry): (m: StyleMap) {
    [a, Entry(h, Obj([b])), f]
  }

  /** Extraction moves the function out and leaves the rest in place. */
  lemma ButtonExtract(hash: StyleMap -> string, variant: Variant, a: Entry, h: string, b: Entry, f: Entry)
    requires ButtonShaped(a, h, b, f)
    ensures var m := ButtonOf(a, h, b, f);
      && WellFormed(m) && RenderSafe(Sample(hash), m) && ExtractSafe(Sample(hash), m)
      && Extract(Sample(hash), variant, m) == Split([a, Entry(h, Obj([b]))], [f])
  {
    var env := Sample(hash);
    var hover := Entry(h, Obj([b]));
    var m := ButtonOf(a, h, b, f);
    ButtonSafe(hash, a, h, b, f);
    PseudoOverFlatExtract(env, variant, h, b);
    PairExtract(env, variant, hover, f);
    assert ExtractEntry(env, variant, f) == Split([], [f]);
    ExtractUnfold(env, variant, m);
    assert ExtractEntry(env, variant, a) == Split([a], []);
  }

  lemma ButtonSafe(hash: StyleMap -> string, a: Entry, h: string, b: Entry, f: Entry)
    requires ButtonShaped(a, h, b, f)
    ensures var m := ButtonOf(a, h, b, f);
      && WellFormed(m) && RenderSafe(Sample(hash), m) && ExtractSafe(Sample(hash), m)
      && m[1..] == [Entry(h, Obj([b])), f]
  {
    var env := Sample(hash);
    var m := ButtonOf(a, h, b, f);
    Singleton(b.key, b.value);
    assert Keys(m) == [a.key, h, f.key];
    assert RenderSafeEntry(env, h, Obj([b]));
    assert RenderSafe(env, m);
    RenderSafeIsExtractSafe(env, m);
  }

  /** A pseudo-class holding one flat style is left as it is. */
  lemma PseudoOverFlatExtract(env: Env, variant: Variant, h: string, b: Entry)
    requires env.isPseudo(h) && b.value.Prim?
    ensures WellFormedValue(Obj([b])) && ExtractSafeEntry(env, h, Obj([b]))
    ensures ExtractEntry(env, variant, Entry(h, Obj([b]))) == Split([Entry(h, Obj([b]))], [])
  {
    LoneExtract(env, variant, b);
    assert ExtractEntry(env, variant, b) == Split([b], []);
  }

  /** Lines 93-123 on that map, with scope `scope` and no selector hint: the
      class is named after `{a}`, which is added for it; the function is added
      as its dynamic styles; `b` is added for the class with `h` appended. */
  lemma ButtonRenders(hash: StyleMap -> string, variant: Variant, scope: string, a: Entry, h: string, b: Entry, f: Entry)
    requires ButtonShaped(a, h, b, f)
    ensures var m := ButtonOf(a, h, b, f);
      && WellFormed(m) && ExtractSafe(Sample(hash), m)
      && RenderSafe(Sample(hash), Nested(Extract(Sample(hash), variant, m).remaining))
      && OrdersByPermutation(Sample(hash))
      && var className := scope + "-default-" + hash([a]);
      RenderStaticStyles(Sample(hash), variant, m, scope, None)
        == Outcome(className, [Add("." + className, [a], None), AddDynamic(className, [f]), Add("." + className + h, [b], Some(""))])
  {
    var env := Sample(hash);
    var m := ButtonOf(a, h, b, f);
    var hover := Entry(h, Obj([b]));
    ButtonReady(hash, variant, a, h, b, f);
    RenderStaticUnfold(env, variant, m, scope, None);
    var split := Extract(env, variant, m);
    var className := scope + "-" + SelectorOrDefault(None) + "-" + hash([a]);
    DefaultInfix(scope, hash([a]));
    HoverRenders(hash, variant, className, h, b);
    var log := [Add("." + className + h, [b], Some(""))];
    assert RenderSpecial(env, variant, className, Nested(split.remaining), "", "").log == log;
    AssembleBoth(className, [a], [f], log);
  }

  /** What the renderer works on for that map: the extraction, and the base
      and nested parts of what it leaves. */
  lemma ButtonReady(hash: StyleMap -> string, variant: Variant, a: Entry, h: string, b: Entry, f: Entry)
    requires ButtonShaped(a, h, b, f)
    ensures var m, env := ButtonOf(a, h, b, f), Sample(hash);
      && WellFormed(m) && ExtractSafe(env, m) && OrdersByPermutation(env)
      && Extract(env, variant, m) == Split([a, Entry(h, Obj([b]))], [f])
      && BaseStyles([a, Entry(h, Obj([b]))]) == [a]
      && Nested([a, Entry(h, Obj([b]))]) == [Entry(h, Obj([b]))]
      && RenderSafe(env, Nested(Extract(env, variant, m).remaining))
  {
    var env := Sample(hash);
    var m := ButtonOf(a, h, b, f);
    ButtonExtract(hash, variant, a, h, b, f);
    ExtractKeepsRenderSafe(env, variant, m);
    NestedIsRenderable(env, Extract(env, variant, m).remaining);
    SampleOrders(hash);
    ButtonParts(a, Entry(h, Obj([b])));
  }

  /** The class name built without a selector hint. */
  lemma DefaultInfix(scope: string, name: string)
    ensures scope + "-" + SelectorOrDefault(None) + "-" + name == scope + "-default-" + name
  {
    Joined("-", "default", "-default");
    Joined("-default", "-", "-default-");
    assert scope + "-" + "default" + "-" + name == scope + ("-" + "default" + "-") + name;
  }

  lemma Joined(a: string, b: string, c: string)
    requires |a| + |b| == |c| && a == c[..|a|] && b == c[|a|..]
    ensures a + b == c
  {
  }

  /** With base and dynamic styles both present, both calls come first. */
  lemma AssembleBoth(className: string, base: StyleMap, dynamic: StyleMap, special: seq<Call>)
    requires base != [] && dynamic != []
    ensures Assemble(className, base, dynamic, special)
      == [Add("." + className, base, None), AddDynamic(className, dynamic)] + special
  {
  }

  lemma ButtonParts(a: Entry, hover: Entry)
    requires a.value.Prim? && hover.value.Obj?
    ensures BaseStyles([a, hover]) == [a] && Nested([a, hover]) == [hover]
  {
    assert [a, hover][1..] == [hover];
    assert BaseStyles([hover]) == [] + BaseStyles([]);
    assert Nested([hover]) == [hover] + Nested([]);
  }

  lemma HoverRenders(hash: StyleMap -> string, variant: Variant, className: string, h: string, b: Entry)
    requires |h| > 0 && h[0] == ':' && b.value.Prim?
    ensures WellFormed([Entry(h, Obj([b]))]) && RenderSafe(Sample(hash), [Entry(h, Obj([b]))]) && OrdersByPermutation(Sample(hash))
    ensures RenderSpecial(Sample(hash), variant, className, [Entry(h, Obj([b]))], "", "").log
      == [Add("." + className + h, [b], Some(""))]
  {
    var env := Sample(hash);
    OneFlatStyle(hash, variant, className, b.key, b.value, h, "");
    EmptyPseudo(className, h);
    var nested := RenderSpecial(env, variant, className, [b], h, "");
    assert RenderSpecial(env, variant, className, [b], "" + h, "") == nested;
    OnePseudoClass(hash, variant, className, h, [b], "", "");
  }
}

=== FILE: special.dfy ===
/**
 `renderSpecialStyles` (modules/core/renderer.js, lines 62-83). The source
 walks the keys of a style map in the order `sortPseudoClasses` gives them.
 It renders every pseudo-class and media-query sub-map recursively into the
 style container and returns the flat styles of the current level as the
 "extension". The container calls are returned as a log alongside the
 extension.
 */
module SpecialRendering {

  import opened Text
  import opened Styles
  import opened Context

  datatype Rendered = Rendered(extension: StyleMap, log: seq<Call>)

  const MediaMarker: string := "@media"

  /** `ext` holds exactly the entries of `m` whose value is not an object,
      unchanged: the flat styles of one nesting level. */
  predicate HoldsFlatOf(ext: StyleMap, m: StyleMap) {
    && Distinct(Keys(ext))
    && (forall e :: e in ext ==> e in m && !IsObjectTyped(e.value))
    && (forall e :: e in m && !IsObjectTyped(e.value) ==> e in ext)
  }

  /** A call registering a rule for a selector extending `prefix`, under a
      media condition; with the corrected media rule the condition also
      extends the enclosing condition `media`. */
  predicate NestedUnder(variant: Variant, c: Call, prefix: string, media: string) {
    && c.Add?
    && c.media.Some?
    && StartsWith(c.selector, prefix)
    && (variant == Corrected ==> StartsWith(c.media.value, media))
  }

  /** `c` registers a rule for the selector `sel` under the media condition
      `media` whose styles are exactly the flat styles of `sub`. */
  predicate IsRule(c: Call, sel: string, media: string, sub: StyleMap) {
    c.Add? && c.selector == sel && c.media == Some(media) && HoldsFlatOf(c.styles, sub)
  }

  /** The log holds such a rule. */
  predicate Registers(log: seq<Call>, sel: string, media: string, sub: StyleMap) {
    exists c :: c in log && IsRule(c, sel, media, sub)
  }

  /** The rules the key `k` holding `v` owes the log at this level: the
      pseudo-class rule of lines 67-69 and the media rule of lines 73-76,
      each holding the flat styles of the sub-map. */
  predicate RegistersKey(env: Env, variant: Variant, log: seq<Call>, selector: string, k: string, v: Value, pseudo: string, media: string) {
    IsObjectTyped(v) ==>
      && (env.isPseudo(k) ==> Registers(log, "." + selector + pseudo + k, media, View(v)))
      && (env.isMedia(k) ==> Registers(log, "." + selector + pseudo, NewMedia(variant, media, k), View(v)))
  }

  /** The log holds the rules owed by every key of `m` and, through the
      pseudo-class and media-query keys, by every key of every sub-map at
      any depth: a sub-map under the pseudo-class `k` owes its rules with
      `k` appended to the pseudo-class chain (line 67), one under the media
      query `k` owes them under the new media condition (line 74). */
  predicate RegistersDeep(env: Env, variant: Variant, log: seq<Call>, selector: string, m: StyleMap, pseudo: string, media: string)
    decreases MapSize(m), 1
  {
    m != [] ==>
      && RegistersDeepKey(env, variant, log, selector, m[0].key, m[0].value, pseudo, media)
      && RegistersDeep(env, variant, log, selector, m[1..], pseudo, media)
  }

  predicate RegistersDeepKey(env: Env, variant: Variant, log: seq<Call>, selector: string, k: string, v: Value, pseudo: string, media: string)
    decreases Size(v), 0
  {
    && RegistersKey(env, variant, log, selector, k, v, pseudo, media)
    && (IsObjectTyped(v) && env.isPseudo(k) ==> RegistersDeep(env, variant, log, selector, View(v), pseudo + k, media))
    && (IsObjectTyped(v) && env.isMedia(k) ==> RegistersDeep(env, variant, log, selector, View(v), pseudo, NewMedia(variant, media, k)))
  }

  /** The converse: `c` is a rule some key of `m` owes, at some depth. It is
      the rule of a pseudo-class or media-query key of `m` itself, or a rule
      owed by the sub-map under such a key, with the pseudo-class chain or
      the media condition extended as for `RegistersDeep`. */
  predicate OwedDeep(env: Env, variant: Variant, c: Call, selector: string, m: StyleMap, pseudo: string, media: string)
    decreases MapSize(m), 1
  {
    && m != []
    && (|| OwedDeepKey(env, variant, c, selector, m[0].key, m[0].value, pseudo, media)
        || OwedDeep(env, variant, c, selector, m[1..], pseudo, media))
  }

  predicate OwedDeepKey(env: Env, variant: Variant, c: Call, selector: string, k: string, v: Value, pseudo: string, media: string)
    decreases Size(v), 0
  {
    && IsObjectTyped(v)
    && (|| (env.isPseudo(k) && OwedByBlock(env, variant, c, selector, View(v), pseudo + k, media, "." + selector + pseudo + k))
        || (env.isMedia(k) && OwedByBlock(env, variant, c, selector, View(v), pseudo, NewMedia(variant, media, k), "." + selector + pseudo)))
  }

  /** `c` is the rule of a block rendering `sub` with the chain `pseudo` under
      `media`, registered for `own`, or a rule owed inside `sub`. */
  predicate OwedByBlock(env: Env, variant: Variant, c: Call, selector: string, sub: StyleMap, pseudo: string, media: string, own: string)
    decreases MapSize(sub), 2
  {
    IsRule(c, own, media, sub) || OwedDeep(env, variant, c, selector, sub, pseudo, media)
  }

  /** A rule owed by a key of `m` is owed by `m`. */
  lemma {:induction false} OwedByKeyOfMap(env: Env, variant: Variant, c: Call, selector: string, m: StyleMap, k: string, pseudo: string, media: string)
    requires k in Keys(m)
    requires OwedDeepKey(env, variant, c, selector, k, Get(m, k), pseudo, media)
    ensures OwedDeep(env, variant, c, selector, m, pseudo, media)
    decreases m
  {
    if m[0].key != k {
      assert Keys(m) == [m[0].key] + Keys(m[1..]);
      assert Get(m, k) == Get(m[1..], k);
      OwedByKeyOfMap(env, variant, c, selector, m[1..], k, pseudo, media);
    }
  }

  /** Rules registered at every depth by a log are registered by every log
      holding its calls. */
  lemma {:induction false} RegistersDeepWiden(env: Env, variant: Variant, log: seq<Call>, wider: seq<Call>, selector: string, m: StyleMap, pseudo: string, media: string)
    requires forall c :: c in log ==> c in wider
    requires RegistersDeep(env, variant, log, selector, m, pseudo, media)
    ensures RegistersDeep(env, variant, wider, selector, m, pseudo, media)
    decreases MapSize(m), 1
  {
    if m != [] {
      RegistersDeepKeyWiden(env, variant, log, wider, selector, m[0].key, m[0].value, pseudo, media);
      RegistersDeepWiden(env, variant, log, wider, selector, m[1..], pseudo, media);
    }
  }

  lemma {:induction false} RegistersDeepKeyWiden(env: Env, variant: Variant, log: seq<Call>, wider: seq<Call>, selector: string, k: string, v: Value, pseudo: string, media: string)
    requires forall c :: c in log ==> c in wider
    requires RegistersDeepKey(env, variant, log, selector, k, v, pseudo, media)
    ensures RegistersDeepKey(env, variant, wider, selector, k, v, pseudo, media)
    decreases Size(v), 0
  {
    RegistersKeyWiden(env, variant, log, wider, selector, k, v, pseudo, media);
    if IsObjectTyped(v) && env.isPseudo(k) {
      RegistersDeepWiden(env, variant, log, wider, selector, View(v), pseudo + k, media);
    }
    if IsObjectTyped(v) && env.isMedia(k) {
      RegistersDeepWiden(env, variant, log, wider, selector, View(v), pseudo, NewMedia(variant, media, k));
    }
  }

  /** A rule a log registers is registered by every log holding its calls. */
  lemma RegistersKeyWiden(env: Env, variant: Variant, log: seq<Call>, wider: seq<Call>, selector: string, k: string, v: Value, pseudo: string, media: string)
    requires forall c :: c in log ==> c in wider
    requires RegistersKey(env, variant, log, selector, k, v, pseudo, media)
    ensures RegistersKey(env, variant, wider, selector, k, v, pseudo, media)
  {
    if IsObjectTyped(v) && env.isPseudo(k) {
      var c :| c in log && IsRule(c, "." + selector + pseudo + k, media, View(v));
      assert c in wider;
    }
    if IsObjectTyped(v) && env.isMedia(k) {
      var c :| c in log && IsRule(c, "." + selector + pseudo, NewMedia(variant, media, k), View(v));
      assert c in wider;
    }
  }

  /** The number of pseudo-class and media-query blocks nested in `m`, counted
      in the map's own order: a block under a key that is both a pseudo-class
      and a media query is rendered, and counted, twice. */
  function Blocks(env: Env, m: StyleMap): (n: nat)
    decreases MapSize(m), 1
  {
    if m == [] then 0 else EntryBlocks(env, m[0].key, m[0].value) + Blocks(env, m[1..])
  }

  function EntryBlocks(env: Env, k: string, v: Value): (n: nat)
    decreases Size(v), 0
  {
    if v.Obj? || v.Arr? then
      (if env.isPseudo(k) then 1 + Blocks(env, View(v)) else 0)
      + (if env.isMedia(k) then 1 + Blocks(env, View(v)) else 0)
    else 0
  }

  /** The media condition built for a nested media-query key (line 73). As
      written it is `' and'` when an outer condition exists, followed by the
      key with its first `@media` removed: the outer condition itself is not
      kept. Corrected, the outer condition is kept in front. */
  function NewMedia(variant: Variant, media: string, key: string): (r: string)
    ensures StartsWith(key, MediaMarker) ==>
      r == (if variant == Corrected then media else "") + (if media != "" then " and" else "") + key[|MediaMarker|..]
    ensures StartsWith(key, MediaMarker) ==> EndsWith(r, key[|MediaMarker|..])
    ensures variant == Corrected ==> StartsWith(r, media)
  {
    var joint := if media != "" then " and" else "";
    var condition := RemoveFirst(key, MediaMarker);
    if StartsWith(key, MediaMarker) then
      assert FirstOccurrence(key, MediaMarker, 0);
      RemoveFirstDeletesFirstOccurrence(key, MediaMarker, 0);
      assert condition == key[|MediaMarker|..];
      assert "" + joint + condition == joint + condition;
      match variant
      case AsWritten => joint + condition
      case Corrected =>
        StartsWithAppend(media, joint + condition);
        assert media + joint + condition == media + (joint + condition);
        media + joint + condition
    else
      match variant
      case AsWritten => joint + condition
      case Corrected =>
        StartsWithAppend(media, joint + condition);
        assert media + joint + condition == media + (joint + condition);
        media + joint + condition
  }

  /** `renderSpecialStyles(selector, m, pseudo, media)`. */
  function RenderSpecial(env: Env, variant: Variant, selector: string, m: StyleMap, pseudo: string, media: string): (r: Rendered)
    requires WellFormed(m) && RenderSafe(env, m) && OrdersByPermutation(env)
    ensures HoldsFlatOf(r.extension, m)
    ensures forall c :: c in r.log ==> NestedUnder(variant, c, "." + selector + pseudo, media)
    ensures |r.log| == Blocks(env, m)
    ensures RegistersDeep(env, variant, r.log, selector, m, pseudo, media)
    ensures forall c :: c in r.log ==> OwedDeep(env, variant, c, selector, m, pseudo, media)
    decreases MapSize(m), 2, 0
  {
    var keys := env.order(Keys(m));
    SortedKeys(env, m);
    var r := RenderKeys(env, variant, selector, m, keys, pseudo, media);
    ExtensionOfAllKeys(m, keys, r.extension);
    DeepOfAllKeys(env, variant, m, m, keys, r.log, selector, pseudo, media);
    KeysBlocksOfPermutation(env, m, Keys(m), keys);
    KeysBlocksOfOwnKeys(env, m, m);
    r
  }

  /** The sorted keys are the map's keys, each once. */
  lemma SortedKeys(env: Env, m: StyleMap)
    requires WellFormed(m) && OrdersByPermutation(env)
    ensures multiset(env.order(Keys(m))) == multiset(Keys(m))
    ensures Distinct(env.order(Keys(m)))
    ensures forall k :: k in env.order(Keys(m)) ==> k in Keys(m)
    ensures forall k :: k in Keys(m) ==> k in env.order(Keys(m))
  {
    var keys := env.order(Keys(m));
    assert multiset(keys) == multiset(Keys(m));
    forall k | k in keys ensures k in Keys(m) {
      assert k in multiset(keys);
    }
    forall k | k in Keys(m) ensures k in keys {
      assert k in multiset(Keys(m));
    }
    DistinctPermutation(Keys(m), keys);
  }

  /** Collecting the flat entries under every key of `m`, in any order, gives
      exactly the flat entries of `m`. */
  lemma ExtensionOfAllKeys(m: StyleMap, keys: seq<string>, ext: StyleMap)
    requires Distinct(Keys(m)) && multiset(keys) == multiset(Keys(m))
    requires forall k :: k in keys ==> k in Keys(m)
    requires forall e :: e in ext ==> e in m && !IsObjectTyped(e.value)
    requires forall k :: k in keys && !IsObjectTyped(Get(m, k)) ==> Entry(k, Get(m, k)) in ext
    requires Distinct(Keys(ext))
    ensures HoldsFlatOf(ext, m)
  {
    forall e | e in m && !IsObjectTyped(e.value)
      ensures e in ext
    {
      assert e.key in Keys(m);
      assert e.key in multiset(Keys(m));
      assert e.key in keys;
      FindMember(m, e);
    }
  }

  /** The rules owed at every depth by the keys visited are those owed by
      the entries of `s`, a part of `m`. */
  lemma {:induction false} DeepOfAllKeys(env: Env, variant: Variant, m: StyleMap, s: StyleMap, keys: seq<string>, log: seq<Call>, selector: string, pseudo: string, media: string)
    requires Distinct(Keys(m)) && forall e :: e in s ==> e in m
    requires forall k :: k in Keys(m) ==> k in keys
    requires forall k :: k in keys ==> k in Keys(m)
    requires forall k :: k in keys ==> RegistersDeepKey(env, variant, log, selector, k, Get(m, k), pseudo, media)
    ensures RegistersDeep(env, variant, log, selector, s, pseudo, media)
    decreases s
  {
    if s != [] {
      assert s[0] in m;
      FindMember(m, s[0]);
      assert s[0].key in Keys(m);
      DeepOfAllKeys(env, variant, m, s[1..], keys, log, selector, pseudo, media);
    }
  }

  /** The `reduce` over the sorted keys (lines 63-82), from the key `keys[0]` on. */
  function RenderKeys(env: Env, variant: Variant, selector: string, m: StyleMap, keys: seq<string>, pseudo: string, media: string): (r: Rendered)
    requires WellFormed(m) && RenderSafe(env, m) && OrdersByPermutation(env)
    requires Distinct(keys) && forall k :: k in keys ==> k in Keys(m)
    ensures forall e :: e in r.extension ==> e.key in keys && e in m && !IsObjectTyped(e.value)
    ensures forall k :: k in keys && !IsObjectTyped(Get(m, k)) ==> Entry(k, Get(m, k)) in r.extension
    ensures Distinct(Keys(r.extension))
    ensures forall c :: c in r.log ==> NestedUnder(variant, c, "." + selector + pseudo, media)
    ensures |r.log| == KeysBlocks(env, m, keys)
    ensures forall k :: k in keys ==> RegistersDeepKey(env, variant, r.log, selector, k, Get(m, k), pseudo, media)
    ensures forall c :: c in r.log ==> OwedDeep(env, variant, c, selector, m, pseudo, media)
    decreases MapSize(m), 1, |keys|
  {
    if keys == [] then Rendered([], [])
    else
      var k := keys[0];
      GetInside(env, m, k);
      var head := RenderKey(env, variant, selector, k, Get(m, k), pseudo, media);
      var rest := RenderKeys(env, variant, selector, m, keys[1..], pseudo, media);
      JoinKeys(env, variant, selector, m, keys, pseudo, media, head, rest);
      JoinRegistrations(env, variant, m, keys, head.log, rest.log, selector, pseudo, media);
      JoinOwed(env, variant, m, keys[0], head.log, rest.log, selector, pseudo, media);
      Rendered(head.extension + rest.extension, head.log + rest.log)
  }

  /** The first key's step followed by the rest of the `reduce`. */
  lemma JoinKeys(env: Env, variant: Variant, selector: string, m: StyleMap, keys: seq<string>, pseudo: string, media: string, head: Rendered, rest: Rendered)
    requires keys != [] && Distinct(keys) && forall k :: k in keys ==> k in Keys(m)
    requires var v := Get(m, keys[0]);
      && (!IsObjectTyped(v) ==> head == Rendered([Entry(keys[0], v)], []))
      && (IsObjectTyped(v) ==> head.extension == [])
      && (forall c :: c in head.log ==> NestedUnder(variant, c, "." + selector + pseudo, media))
      && |head.log| == EntryBlocks(env, keys[0], v)
    requires forall e :: e in rest.extension ==> e.key in keys[1..] && e in m && !IsObjectTyped(e.value)
    requires forall k :: k in keys[1..] && !IsObjectTyped(Get(m, k)) ==> Entry(k, Get(m, k)) in rest.extension
    requires Distinct(Keys(rest.extension))
    requires forall c :: c in rest.log ==> NestedUnder(variant, c, "." + selector + pseudo, media)
    requires |rest.log| == KeysBlocks(env, m, keys[1..])
    ensures var r := Rendered(head.extension + rest.extension, head.log + rest.log);
      && (forall e :: e in r.extension ==> e.key in keys && e in m && !IsObjectTyped(e.value))
      && (forall k :: k in keys && !IsObjectTyped(Get(m, k)) ==> Entry(k, Get(m, k)) in r.extension)
      && Distinct(Keys(r.extension))
      && (forall c :: c in r.log ==> NestedUnder(variant, c, "." + selector + pseudo, media))
      && |r.log| == KeysBlocks(env, m, keys)
  {
    var k := keys[0];
    assert keys == [k] + keys[1..];
    JoinExtensions(m, keys, Get(m, k), head.extension, rest.extension);
  }

  /** The rules owed by the first key and by the rest are all in the joined log. */
  lemma JoinRegistrations(env: Env, variant: Variant, m: StyleMap, keys: seq<string>, first: seq<Call>, rest: seq<Call>, selector: string, pseudo: string, media: string)
    requires keys != [] && forall k :: k in keys ==> k in Keys(m)
    requires RegistersDeepKey(env, variant, first, selector, keys[0], Get(m, keys[0]), pseudo, media)
    requires forall k :: k in keys[1..] ==> RegistersDeepKey(env, variant, rest, selector, k, Get(m, k), pseudo, media)
    ensures forall k :: k in keys ==> RegistersDeepKey(env, variant, first + rest, selector, k, Get(m, k), pseudo, media)
  {
    forall k | k in keys
      ensures RegistersDeepKey(env, variant, first + rest, selector, k, Get(m, k), pseudo, media)
    {
      if k == keys[0] {
        RegistersDeepKeyWiden(env, variant, first, first + rest, selector, k, Get(m, k), pseudo, media);
      } else {
        assert keys == [keys[0]] + keys[1..];
        assert k in keys[1..];
        RegistersDeepKeyWiden(env, variant, rest, first + rest, selector, k, Get(m, k), pseudo, media);
      }
    }
  }

  /** Every call of the joined log is owed by `m`. */
  lemma JoinOwed(env: Env, variant: Variant, m: StyleMap, k: string, first: seq<Call>, rest: seq<Call>, selector: string, pseudo: string, media: string)
    requires k in Keys(m)
    requires forall c :: c in first ==> OwedDeepKey(env, variant, c, selector, k, Get(m, k), pseudo, media)
    requires forall c :: c in rest ==> OwedDeep(env, variant, c, selector, m, pseudo, media)
    ensures forall c :: c in first + rest ==> OwedDeep(env, variant, c, selector, m, pseudo, media)
  {
    forall c | c in first + rest
      ensures OwedDeep(env, variant, c, selector, m, pseudo, media)
    {
      if c in first {
        OwedByKeyOfMap(env, variant, c, selector, m, k, pseudo, media);
      }
    }
  }

  lemma JoinExtensions(m: StyleMap, keys: seq<string>, v: Value, first: StyleMap, rest: StyleMap)
    requires keys != [] && Distinct(keys) && forall k :: k in keys ==> k in Keys(m)
    requires v == Get(m, keys[0])
    requires !IsObjectTyped(v) ==> first == [Entry(keys[0], v)]
    requires IsObjectTyped(v) ==> first == []
    requires forall e :: e in rest ==> e.key in keys[1..] && e in m && !IsObjectTyped(e.value)
    requires forall k :: k in keys[1..] && !IsObjectTyped(Get(m, k)) ==> Entry(k, Get(m, k)) in rest
    requires Distinct(Keys(rest))
    ensures forall e :: e in first + rest ==> e.key in keys && e in m && !IsObjectTyped(e.value)
    ensures forall k :: k in keys && !IsObjectTyped(Get(m, k)) ==> Entry(k, Get(m, k)) in first + rest
    ensures Distinct(Keys(first + rest))
  {
    JoinedEntriesBelong(m, keys, v, first, rest);
    JoinedEntriesCover(m, keys, v, first, rest);
    JoinedKeysDistinct(keys, first, rest);
  }

  lemma JoinedKeysDistinct(keys: seq<string>, first: StyleMap, rest: StyleMap)
    requires keys != [] && Distinct(keys)
    requires first == [] || Keys(first) == [keys[0]]
    requires forall e :: e in rest ==> e.key in keys[1..]
    requires Distinct(Keys(rest))
    ensures Distinct(Keys(first + rest))
  {
    assert keys[0] !in keys[1..];
    assert keys[0] !in Keys(rest);
    KeysAppend(first, rest);
    DistinctAppend(Keys(first), Keys(rest));
  }

  lemma JoinedEntriesBelong(m: StyleMap, keys: seq<string>, v: Value, first: StyleMap, rest: StyleMap)
    requires keys != [] && keys[0] in Keys(m) && v == Get(m, keys[0])
    requires !IsObjectTyped(v) ==> first == [Entry(keys[0], v)]
    requires IsObjectTyped(v) ==> first == []
    requires forall e :: e in rest ==> e.key in keys[1..] && e in m && !IsObjectTyped(e.value)
    ensures forall e :: e in first + rest ==> e.key in keys && e in m && !IsObjectTyped(e.value)
  {
    forall e | e in first + rest
      ensures e.key in keys && e in m && !IsObjectTyped(e.value)
    {
      if e in first {
        assert e == Entry(keys[0], v);
      } else {
        assert e in rest;
      }
    }
  }

  lemma JoinedEntriesCover(m: StyleMap, keys: seq<string>, v: Value, first: StyleMap, rest: StyleMap)
    requires keys != [] && forall k :: k in keys ==> k in Keys(m)
    requires v == Get(m, keys[0])
    requires !IsObjectTyped(v) ==> first == [Entry(keys[0], v)]
    requires forall k :: k in keys[1..] && !IsObjectTyped(Get(m, k)) ==> Entry(k, Get(m, k)) in rest
    ensures forall k :: k in keys && !IsObjectTyped(Get(m, k)) ==> Entry(k, Get(m, k)) in first + rest
  {
    assert keys == [keys[0]] + keys[1..];
  }

  /** One step of that `reduce` (lines 64-81), for the key `k` holding `v`. */
  function RenderKey(env: Env, variant: Variant, selector: string, k: string, v: Value, pseudo: string, media: string): (r: Rendered)
    requires WellFormedValue(v) && RenderSafeEntry(env, k, v) && OrdersByPermutation(env)
    ensures !IsObjectTyped(v) ==> r == Rendered([Entry(k, v)], [])
    ensures IsObjectTyped(v) ==> r.extension == []
    ensures IsObjectTyped(v) && !IsSpecial(env, k) ==> r.log == []
    ensures forall c :: c in r.log ==> NestedUnder(variant, c, "." + selector + pseudo, media)
    ensures |r.log| == EntryBlocks(env, k, v)
    ensures RegistersDeepKey(env, variant, r.log, selector, k, v, pseudo, media)
    ensures forall c :: c in r.log ==> OwedDeepKey(env, variant, c, selector, k, v, pseudo, media)
    decreases Size(v), 0, 0
  {
    if !IsObjectTyped(v) then Rendered([Entry(k, v)], [])
    else if !IsSpecial(env, k) then Rendered([], [])
    else
      RenderSafeView(env, k, v);
      var sub := View(v);
      var pseudoLog := if env.isPseudo(k) then PseudoBlock(env, variant, selector, k, sub, pseudo, media) else [];
      var mediaLog := if env.isMedia(k) then MediaBlock(env, variant, selector, k, sub, pseudo, media) else [];
      WidenPrefix(variant, pseudoLog, "." + selector + pseudo, k, media);
      OwnRules(env, variant, selector, k, sub, pseudoLog, mediaLog, pseudo, media);
      BlocksOwed(env, variant, selector, k, v, pseudoLog, mediaLog, pseudo, media);
      Rendered([], pseudoLog + mediaLog)
  }

  /** The last call of each block is the rule the key owes, and the rules
      each block's sub-map owes stay in the joined log. */
  lemma OwnRules(env: Env, variant: Variant, selector: string, k: string, sub: StyleMap, pseudoLog: seq<Call>, mediaLog: seq<Call>, pseudo: string, media: string)
    requires env.isPseudo(k) ==>
      && |pseudoLog| > 0
      && pseudoLog[|pseudoLog| - 1] == Add("." + selector + pseudo + k, pseudoLog[|pseudoLog| - 1].styles, Some(media))
      && HoldsFlatOf(pseudoLog[|pseudoLog| - 1].styles, sub)
      && RegistersDeep(env, variant, pseudoLog, selector, sub, pseudo + k, media)
    requires env.isMedia(k) ==>
      && |mediaLog| > 0
      && mediaLog[|mediaLog| - 1] == Add("." + selector + pseudo, mediaLog[|mediaLog| - 1].styles, Some(NewMedia(variant, media, k)))
      && HoldsFlatOf(mediaLog[|mediaLog| - 1].styles, sub)
      && RegistersDeep(env, variant, mediaLog, selector, sub, pseudo, NewMedia(variant, media, k))
    ensures env.isPseudo(k) ==> Registers(pseudoLog + mediaLog, "." + selector + pseudo + k, media, sub)
    ensures env.isMedia(k) ==> Registers(pseudoLog + mediaLog, "." + selector + pseudo, NewMedia(variant, media, k), sub)
    ensures env.isPseudo(k) ==> RegistersDeep(env, variant, pseudoLog + mediaLog, selector, sub, pseudo + k, media)
    ensures env.isMedia(k) ==> RegistersDeep(env, variant, pseudoLog + mediaLog, selector, sub, pseudo, NewMedia(variant, media, k))
  {
    if env.isPseudo(k) {
      assert pseudoLog[|pseudoLog| - 1] in pseudoLog + mediaLog;
      RegistersDeepWiden(env, variant, pseudoLog, pseudoLog + mediaLog, selector, sub, pseudo + k, media);
    }
    if env.isMedia(k) {
      assert mediaLog[|mediaLog| - 1] in pseudoLog + mediaLog;
      RegistersDeepWiden(env, variant, mediaLog, pseudoLog + mediaLog, selector, sub, pseudo, NewMedia(variant, media, k));
    }
  }

  /** Every call of a key's blocks is owed by the key. */
  lemma BlocksOwed(env: Env, variant: Variant, selector: string, k: string, v: Value, pseudoLog: seq<Call>, mediaLog: seq<Call>, pseudo: string, media: string)
    requires IsObjectTyped(v)
    requires env.isPseudo(k) ==> forall c :: c in pseudoLog ==> OwedByBlock(env, variant, c, selector, View(v), pseudo + k, media, "." + selector + pseudo + k)
    requires !env.isPseudo(k) ==> pseudoLog == []
    requires env.isMedia(k) ==> forall c :: c in mediaLog ==> OwedByBlock(env, variant, c, selector, View(v), pseudo, NewMedia(variant, media, k), "." + selector + pseudo)
    requires !env.isMedia(k) ==> mediaLog == []
    ensures forall c :: c in pseudoLog + mediaLog ==> OwedDeepKey(env, variant, c, selector, k, v, pseudo, media)
  {
    forall c | c in pseudoLog + mediaLog
      ensures OwedDeepKey(env, variant, c, selector, k, v, pseudo, media)
    {
      if c in pseudoLog {
        assert env.isPseudo(k);
      } else {
        assert env.isMedia(k);
      }
    }
  }

  /** Calls nested under a selector extended by `k` are nested under the
      selector itself. */
  lemma WidenPrefix(variant: Variant, log: seq<Call>, prefix: string, k: string, media: string)
    requires forall c :: c in log ==> NestedUnder(variant, c, prefix + k, media)
    ensures forall c :: c in log ==> NestedUnder(variant, c, prefix, media)
  {
    StartsWithAppend(prefix, k);
    forall c | c in log
      ensures NestedUnder(variant, c, prefix, media)
    {
      StartsWithTransitive(c.selector, prefix + k, prefix);
    }
  }

  /** A key that is a pseudo-class and no media query renders its block. */
  lemma PseudoKeyRenders(env: Env, variant: Variant, selector: string, k: string, sub: StyleMap, pseudo: string, media: string)
    requires env.isPseudo(k) && !env.isMedia(k)
    requires WellFormed(sub) && RenderSafe(env, sub) && OrdersByPermutation(env)
    ensures WellFormedValue(Obj(sub)) && RenderSafeEntry(env, k, Obj(sub))
    ensures RenderKey(env, variant, selector, k, Obj(sub), pseudo, media)
      == Rendered([], PseudoBlock(env, variant, selector, k, sub, pseudo, media))
  {
    var log := PseudoBlock(env, variant, selector, k, sub, pseudo, media);
    assert View(Obj(sub)) == sub;
    assert log + [] == log;
  }

  /** A key that is a media query and no pseudo-class renders its block. */
  lemma MediaKeyRenders(env: Env, variant: Variant, selector: string, k: string, sub: StyleMap, pseudo: string, media: string)
    requires env.isMedia(k) && !env.isPseudo(k)
    requires WellFormed(sub) && RenderSafe(env, sub) && OrdersByPermutation(env)
    ensures WellFormedValue(Obj(sub)) && RenderSafeEntry(env, k, Obj(sub))
    ensures RenderKey(env, variant, selector, k, Obj(sub), pseudo, media)
      == Rendered([], MediaBlock(env, variant, selector, k, sub, pseudo, media))
  {
    var log := MediaBlock(env, variant, selector, k, sub, pseudo, media);
    assert View(Obj(sub)) == sub;
    assert [] + log == log;
  }

  /** Lines 66-70: the sub-map of the pseudo-class `k` is rendered with `k`
      appended to the pseudo-class chain, then its flat styles are added
      under `'.' + selector + pseudo + k` with the current media condition. */
  function PseudoBlock(env: Env, variant: Variant, selector: string, k: string, sub: StyleMap, pseudo: string, media: string): (log: seq<Call>)
    requires WellFormed(sub) && RenderSafe(env, sub) && OrdersByPermutation(env)
    ensures |log| == 1 + Blocks(env, sub)
    ensures var last := log[|log| - 1];
      && last.Add?
      && last.selector == "." + selector + pseudo + k
      && last.media == Some(media)
      && HoldsFlatOf(last.styles, sub)
    ensures forall c :: c in log ==> NestedUnder(variant, c, "." + selector + pseudo + k, media)
    ensures RegistersDeep(env, variant, log, selector, sub, pseudo + k, media)
    ensures forall c :: c in log ==> OwedByBlock(env, variant, c, selector, sub, pseudo + k, media, "." + selector + pseudo + k)
    decreases MapSize(sub), 3, 0
  {
    var inner := RenderSpecial(env, variant, selector, sub, pseudo + k, media);
    var own := Add("." + selector + pseudo + k, inner.extension, Some(media));
    RegistersDeepWiden(env, variant, inner.log, inner.log + [own], selector, sub, pseudo + k, media);
    assert IsRule(own, "." + selector + pseudo + k, media, sub);
    assert "." + selector + (pseudo + k) == "." + selector + pseudo + k;
    StartsWithAppend("." + selector + pseudo + k, "");
    assert "." + selector + pseudo + k + "" == "." + selector + pseudo + k;
    StartsWithAppend(media, "");
    assert media + "" == media;
    inner.log + [own]
  }

  /** Lines 71-77: the sub-map of the media query `k` is rendered under the
      new media condition with the pseudo-class chain unchanged, then its
      flat styles are added under `'.' + selector + pseudo` with that
      condition. */
  function MediaBlock(env: Env, variant: Variant, selector: string, k: string, sub: StyleMap, pseudo: string, media: string): (log: seq<Call>)
    requires WellFormed(sub) && RenderSafe(env, sub) && OrdersByPermutation(env)
    ensures |log| == 1 + Blocks(env, sub)
    ensures var last := log[|log| - 1];
      && last.Add?
      && last.selector == "." + selector + pseudo
      && last.media == Some(NewMedia(variant, media, k))
      && HoldsFlatOf(last.styles, sub)
    ensures forall c :: c in log ==> NestedUnder(variant, c, "." + selector + pseudo, media)
    ensures RegistersDeep(env, variant, log, selector, sub, pseudo, NewMedia(variant, media, k))
    ensures forall c :: c in log ==> OwedByBlock(env, variant, c, selector, sub, pseudo, NewMedia(variant, media, k), "." + selector + pseudo)
    decreases MapSize(sub), 3, 0
  {
    var newMedia := NewMedia(variant, media, k);
    var inner := RenderSpecial(env, variant, selector, sub, pseudo, newMedia);
    var own := Add("." + selector + pseudo, inner.extension, Some(newMedia));
    RegistersDeepWiden(env, variant, inner.log, inner.log + [own], selector, sub, pseudo, newMedia);
    assert IsRule(own, "." + selector + pseudo, newMedia, sub);
    assert forall c :: c in inner.log ==> NestedUnder(variant, c, "." + selector + pseudo, media) by {
      forall c | c in inner.log
        ensures NestedUnder(variant, c, "." + selector + pseudo, media)
      {
        if variant == Corrected {
          StartsWithTransitive(c.media.value, newMedia, media);
        }
      }
    }
    StartsWithAppend("." + selector + pseudo, "");
    assert "." + selector + pseudo + "" == "." + selector + pseudo;
    inner.log + [own]
  }

  /** The value under a key of a renderable map is itself renderable, and
      smaller. */
  lemma GetInside(env: Env, m: StyleMap, k: string)
    requires WellFormed(m) && RenderSafe(env, m) && k in Keys(m)
    ensures WellFormedValue(Get(m, k)) && RenderSafeEntry(env, k, Get(m, k))
    ensures Size(Get(m, k)) < MapSize(m)
  {
    GetSmaller(m, k);
  }

  /** The blocks under the keys `keys` of `m`, in the order of `keys`. */
  function KeysBlocks(env: Env, m: StyleMap, keys: seq<string>): (n: nat)
    requires forall k :: k in keys ==> k in Keys(m)
  {
    if keys == [] then 0 else EntryBlocks(env, keys[0], Get(m, keys[0])) + KeysBlocks(env, m, keys[1..])
  }

  lemma {:induction false} KeysBlocksAppend(env: Env, m: StyleMap, a: seq<string>, b: seq<string>)
    requires forall k :: k in a + b ==> k in Keys(m)
    ensures KeysBlocks(env, m, a + b) == KeysBlocks(env, m, a) + KeysBlocks(env, m, b)
  {
    if a == [] {
      assert a + b == b;
    } else {
      assert (a + b)[0] == a[0];
      assert (a + b)[1..] == a[1..] + b;
      KeysBlocksAppend(env, m, a[1..], b);
    }
  }

  /** Counting blocks key by key does not depend on the order of the keys. */
  lemma {:induction false} KeysBlocksOfPermutation(env: Env, m: StyleMap, a: seq<string>, b: seq<string>)
    requires multiset(a) == multiset(b)
    requires forall k :: k in a ==> k in Keys(m)
    ensures forall k :: k in b ==> k in Keys(m)
    ensures KeysBlocks(env, m, a) == KeysBlocks(env, m, b)
    decreases |a|
  {
    assert forall k :: k in b ==> k in Keys(m) by {
      forall k | k in b ensures k in Keys(m) {
        assert k in multiset(b);
      }
    }
    if a != [] {
      assert a[0] in multiset(b);
      var j :| 0 <= j < |b| && b[j] == a[0];
      var rest := b[..j] + b[j + 1..];
      RemoveMatching(a, b, j);
      assert forall k :: k in a[1..] ==> k in Keys(m);
      KeysBlocksOfPermutation(env, m, a[1..], rest);
      KeysBlocksSplitAt(env, m, b, j);
    }
  }

  lemma RemoveMatching(a: seq<string>, b: seq<string>, j: int)
    requires multiset(a) == multiset(b) && a != [] && 0 <= j < |b| && b[j] == a[0]
    ensures multiset(a[1..]) == multiset(b[..j] + b[j + 1..])
  {
    assert b == b[..j] + [b[j]] + b[j + 1..];
    assert multiset(b) == multiset(b[..j]) + multiset([b[j]]) + multiset(b[j + 1..]);
    assert a == [a[0]] + a[1..];
    assert multiset(a) == multiset([a[0]]) + multiset(a[1..]);
    var rest := b[..j] + b[j + 1..];
    assert multiset(rest) == multiset(b[..j]) + multiset(b[j + 1..]);
    forall x ensures multiset(a[1..])[x] == multiset(rest)[x] {
      assert multiset(a)[x] == multiset([a[0]])[x] + multiset(a[1..])[x];
      assert multiset(b)[x] == multiset(b[..j])[x] + multiset([b[j]])[x] + multiset(b[j + 1..])[x];
    }
    assert multiset(a[1..]) == multiset(rest);
  }

  lemma KeysBlocksSplitAt(env: Env, m: StyleMap, b: seq<string>, j: int)
    requires forall k :: k in b ==> k in Keys(m)
    requires 0 <= j < |b|
    ensures forall k :: k in b[..j] + b[j + 1..] ==> k in Keys(m)
    ensures KeysBlocks(env, m, b) == EntryBlocks(env, b[j], Get(m, b[j])) + KeysBlocks(env, m, b[..j] + b[j + 1..])
  {
    assert b == b[..j] + ([b[j]] + b[j + 1..]);
    KeysBlocksAppend(env, m, b[..j], [b[j]] + b[j + 1..]);
    KeysBlocksAppend(env, m, [b[j]], b[j + 1..]);
    KeysBlocksAppend(env, m, b[..j], b[j + 1..]);
    assert KeysBlocks(env, m, [b[j]]) == EntryBlocks(env, b[j], Get(m, b[j])) by {
      assert [b[j]][1..] == [];
    }
  }

  /** Counting blocks over the keys of `s`, looked up in `m`, is counting the
      blocks of `s` when `s`'s entries are `m`'s. */
  lemma {:induction false} KeysBlocksOfOwnKeys(env: Env, m: StyleMap, s: StyleMap)
    requires Distinct(Keys(m))
    requires forall e :: e in s ==> e in m
    ensures forall k :: k in Keys(s) ==> k in Keys(m)
    ensures KeysBlocks(env, m, Keys(s)) == Blocks(env, s)
    decreases s
  {
    assert forall k :: k in Keys(s) ==> k in Keys(m) by {
      forall k | k in Keys(s) ensures k in Keys(m) {
        var i :| 0 <= i < |s| && Keys(s)[i] == k;
        assert s[i] in m;
      }
    }
    if s != [] {
      assert Keys(s) == [s[0].key] + Keys(s[1..]);
      assert s[0] in m;
      FindMember(m, s[0]);
      KeysBlocksOfOwnKeys(env, m, s[1..]);
    }
  }
}

=== FILE: static.dfy ===
/**
 `renderStaticStyles`, the default export of modules/core/renderer.js (lines
 93-124). It extracts the dynamic styles, takes the flat base styles out of
 what is left, names the class after them, registers base and dynamic styles
 with the style container and renders the pseudo-class and media-query
 blocks. The class name is returned with the log of container calls.
 */
module StaticRendering {

  import opened Text
  import opened Styles
  import opened Context
  import opened Extraction
  import opened SpecialRendering

  datatype Outcome = Outcome(className: string, log: seq<Call>)

  /** `selector || 'default'` for a selector hint that is absent
      (`undefined`) or a string. */
  function SelectorOrDefault(selector: Option<string>): (r: string)
    ensures r != ""
    ensures selector.Some? && selector.value != "" ==> r == selector.value
    ensures selector == None || selector == Some("") ==> r == "default"
  {
    match selector
    case Some(s) => if s != "" then s else "default"
    case None => "default"
  }

  /** Lines 98-105: the entries whose value is not an object, or is an array. */
  function BaseStyles(m: StyleMap): (r: StyleMap)
    ensures forall e :: e in r <==> e in m && (!IsObjectTyped(e.value) || e.value.Arr?)
  {
    if m == [] then []
    else (if !IsObjectTyped(m[0].value) || m[0].value.Arr? then [m[0]] else []) + BaseStyles(m[1..])
  }

  /** What line 102 leaves in the map: the entries holding a non-array object. */
  function Nested(m: StyleMap): (r: StyleMap)
    ensures |BaseStyles(m)| + |r| == |m|
  {
    if m == [] then []
    else (if IsObjectTyped(m[0].value) && !m[0].value.Arr? then [m[0]] else []) + Nested(m[1..])
  }

  /** What stays in the map is exactly the entries holding a non-array object. */
  lemma {:induction false} NestedMembers(m: StyleMap)
    ensures forall e :: e in Nested(m) <==> e in m && IsObjectTyped(e.value) && !e.value.Arr?
  {
    if m != [] {
      NestedMembers(m[1..]);
      assert m == [m[0]] + m[1..];
    }
  }

  /** `renderStaticStyles(styles, scope, selector)`. */
  function RenderStaticStyles(env: Env, variant: Variant, styles: StyleMap, scope: string, selector: Option<string>): (r: Outcome)
    requires WellFormed(styles) && ExtractSafe(env, styles)
    requires RenderSafe(env, Nested(Extract(env, variant, styles).remaining))
    requires OrdersByPermutation(env)
    ensures r.className == scope + "-" + SelectorOrDefault(selector) + "-" + env.className(Flat(styles))
    ensures |Flat(styles)| > 0 <==> |r.log| > 0 && r.log[0] == Add("." + r.className, Flat(styles), None)
    ensures forall c :: c in r.log && c.Add? && c.media == None ==> c == Add("." + r.className, Flat(styles), None)
    ensures forall c :: c in r.log && c.Add? ==> StartsWith(c.selector, "." + r.className)
    ensures (exists c :: c in r.log && c.AddDynamic?) <==> HasDynamic(env, styles)
    ensures forall c :: c in r.log && c.AddDynamic? ==> c == AddDynamic(r.className, Extract(env, variant, styles).dynamic)
    ensures RegistersDeep(env, variant, r.log, r.className, Nested(Extract(env, variant, styles).remaining), "", "")
    ensures forall c :: c in r.log && c.Add? && c.media.Some? ==> OwedDeep(env, variant, c, r.className, Nested(Extract(env, variant, styles).remaining), "", "")
  {
    var split := Extract(env, variant, styles);
    ExtractSeparates(env, variant, styles);
    ExtractKeepsFlat(env, variant, styles);
    ExtractReportsIffDynamic(env, variant, styles);
    BaseOfCleanIsFlat(env, split.remaining);
    NestedWellFormed(split.remaining);
    var base := BaseStyles(split.remaining);
    var className := scope + "-" + SelectorOrDefault(selector) + "-" + env.className(base);
    var special := RenderSpecial(env, variant, className, Nested(split.remaining), "", "");
    assert "." + className + "" == "." + className;
    AssembleLog(variant, className, base, split.dynamic, special.log);
    AssembleRegisters(env, variant, className, base, split.dynamic, special.log, Nested(split.remaining));
    Outcome(className, Assemble(className, base, split.dynamic, special.log))
  }

  /** `RenderStaticStyles` in terms of the parts it assembles. */
  lemma RenderStaticUnfold(env: Env, variant: Variant, styles: StyleMap, scope: string, selector: Option<string>)
    requires WellFormed(styles) && ExtractSafe(env, styles)
    requires RenderSafe(env, Nested(Extract(env, variant, styles).remaining))
    requires OrdersByPermutation(env)
    ensures var split := Extract(env, variant, styles);
      var base := BaseStyles(split.remaining);
      var className := scope + "-" + SelectorOrDefault(selector) + "-" + env.className(base);
      && WellFormed(Nested(split.remaining)) && RenderSafe(env, Nested(split.remaining))
      && RenderStaticStyles(env, variant, styles, scope, selector)
        == Outcome(className, Assemble(className, base, split.dynamic,
             RenderSpecial(env, variant, className, Nested(split.remaining), "", "").log))
  {
    NestedWellFormed(Extract(env, variant, styles).remaining);
  }

  /** Lines 110-121: the base rule if there are base styles, then the dynamic
      styles if there are any, then the calls of the special-style renderer. */
  function Assemble(className: string, base: StyleMap, dynamic: StyleMap, special: seq<Call>): (r: seq<Call>)
    ensures |r| >= |special| && r[|r| - |special|..] == special
    ensures forall c :: c in r ==> c in special || c == Add("." + className, base, None) || c == AddDynamic(className, dynamic)
  {
    (if |base| > 0 then [Add("." + className, base, None)] else [])
    + (if |dynamic| > 0 then [AddDynamic(className, dynamic)] else [])
    + special
  }

  lemma AssembleLog(variant: Variant, className: string, base: StyleMap, dynamic: StyleMap, special: seq<Call>)
    requires forall c :: c in special ==> NestedUnder(variant, c, "." + className, "")
    ensures var log := Assemble(className, base, dynamic, special);
      && (|base| > 0 <==> |log| > 0 && log[0] == Add("." + className, base, None))
      && (forall c :: c in log && c.Add? && c.media == None ==> c == Add("." + className, base, None))
      && (forall c :: c in log && c.Add? ==> StartsWith(c.selector, "." + className))
      && ((exists c :: c in log && c.AddDynamic?) <==> |dynamic| > 0)
      && (forall c :: c in log && c.AddDynamic? ==> c == AddDynamic(className, dynamic))
  {
    var log := Assemble(className, base, dynamic, special);
    StartsWithAppend("." + className, "");
    if |dynamic| > 0 {
      assert AddDynamic(className, dynamic) in log;
    }
    if |base| == 0 && |log| > 0 {
      if |dynamic| > 0 {
        assert log[0] == AddDynamic(className, dynamic);
      } else {
        assert log == special;
        assert special[0] in special;
        assert NestedUnder(variant, special[0], "." + className, "");
      }
    }
  }

  /** The rules the special-style renderer registers stay in the assembled
      log, and every other rule with a media condition is one of them. */
  lemma AssembleRegisters(env: Env, variant: Variant, className: string, base: StyleMap, dynamic: StyleMap, special: seq<Call>, m: StyleMap)
    requires RegistersDeep(env, variant, special, className, m, "", "")
    requires forall c :: c in special ==> OwedDeep(env, variant, c, className, m, "", "")
    ensures RegistersDeep(env, variant, Assemble(className, base, dynamic, special), className, m, "", "")
    ensures forall c :: c in Assemble(className, base, dynamic, special) && c.Add? && c.media.Some? ==> OwedDeep(env, variant, c, className, m, "", "")
  {
    var log := Assemble(className, base, dynamic, special);
    assert forall c :: c in special ==> c in log;
    RegistersDeepWiden(env, variant, special, log, className, m, "", "");
  }

  /** In a clean map the base styles are exactly its flat styles. */
  lemma {:induction false} BaseOfCleanIsFlat(env: Env, m: StyleMap)
    requires Clean(env, m)
    ensures BaseStyles(m) == Flat(m)
  {
    if m != [] {
      assert Clean(env, m[1..]) by {
        assert forall j :: 0 <= j < |m| - 1 ==> m[1..][j] == m[j + 1];
      }
      BaseOfCleanIsFlat(env, m[1..]);
    }
  }

  /** What is left for the special-style renderer has distinct keys at every
      depth, all of them keys of the map. */
  lemma {:induction false} NestedWellFormed(m: StyleMap)
    requires WellFormed(m)
    ensures WellFormed(Nested(m))
    ensures forall k :: k in Keys(Nested(m)) ==> k in Keys(m)
  {
    if m != [] {
      WellFormedUncons(m);
      NestedWellFormed(m[1..]);
      var head := if IsObjectTyped(m[0].value) && !m[0].value.Arr? then [m[0]] else [];
      assert WellFormed(head);
      WellFormedAppend(head, Nested(m[1..]));
    }
  }

  /** What is left for the special-style renderer is safe to render, and
      its keys are keys of the map; `NestedWellFormed` adds that they are
      distinct at every depth. */
  lemma {:induction false} NestedIsRenderable(env: Env, m: StyleMap)
    requires WellFormed(m) && RenderSafe(env, m)
    ensures RenderSafe(env, Nested(m))
    ensures forall k :: k in Keys(Nested(m)) ==> k in Keys(m)
  {
    NestedWellFormed(m);
    if m != [] {
      WellFormedUncons(m);
      assert RenderSafe(env, m[1..]) by {
        assert forall j :: 0 <= j < |m| - 1 ==> m[1..][j] == m[j + 1];
      }
      NestedIsRenderable(env, m[1..]);
      var head := if IsObjectTyped(m[0].value) && !m[0].value.Arr? then [m[0]] else [];
      assert RenderSafe(env, head);
      RenderSafeAppend(env, head, Nested(m[1..]));
    }
  }
}

=== FILE: styles.dfy ===
/**
 The data the renderer works on. A style object is a JavaScript object; the
 renderer only ever enumerates it with `Object.keys`, so it is modelled as an
 association list in that enumeration order. A value is classified exactly as
 the renderer classifies it, with `typeof` and `Array.isArray`.
 */
module Styles {

  import opened Text

  datatype Option<+T> = None | Some(value: T)

  datatype Value =
    | Prim(token: string)        // string, number, boolean or undefined
    | Fn(id: nat)                // a function: a stateful style, opaque here and never called
    | Null                       // null, whose typeof is 'object'
    | Arr(items: seq<Value>)     // an array: typeof 'object' and Array.isArray
    | Obj(entries: seq<Entry>)   // any other object: a nested style map

  datatype Entry = Entry(key: string, value: Value)

  type StyleMap = seq<Entry>

  /** `typeof v === 'object'` */
  predicate IsObjectTyped(v: Value) {
    v.Null? || v.Arr? || v.Obj?
  }

  /** `Object.keys(m)` */
  function Keys(m: StyleMap): (ks: seq<string>)
    ensures |ks| == |m|
    ensures forall i :: 0 <= i < |m| ==> ks[i] == m[i].key
  {
    if m == [] then [] else [m[0].key] + Keys(m[1..])
  }

  predicate Distinct(ks: seq<string>) {
    forall i, j :: 0 <= i < j < |ks| ==> ks[i] != ks[j]
  }

  /** `m[k]` for a key that may be absent. */
  function Find(m: StyleMap, k: string): (r: Option<Value>)
    ensures r.Some? <==> k in Keys(m)
    ensures r.Some? ==> Entry(k, r.value) in m
  {
    if m == [] then None
    else if m[0].key == k then Some(m[0].value)
    else Find(m[1..], k)
  }

  /** `m[k]` for a key `Object.keys(m)` returned. */
  function Get(m: StyleMap, k: string): (v: Value)
    requires k in Keys(m)
    ensures Entry(k, v) in m
  {
    Find(m, k).value
  }

  /** A JavaScript object never holds a key twice, at any depth. */
  predicate WellFormed(m: StyleMap) {
    && Distinct(Keys(m))
    && forall i :: 0 <= i < |m| ==> WellFormedValue(m[i].value)
  }

  predicate WellFormedValue(v: Value) {
    match v
    case Obj(entries) => WellFormed(entries)
    case Arr(items) => forall i :: 0 <= i < |items| ==> WellFormedValue(items[i])
    case _ => true
  }

  /** A measure that strictly shrinks from a value to anything nested in it,
      including the index-keyed view of an array. */
  function Size(v: Value): (n: nat) {
    match v
    case Arr(items) => 1 + ItemsSize(items)
    case Obj(entries) => 1 + MapSize(entries)
    case _ => 1
  }

  function ItemsSize(items: seq<Value>): (n: nat) {
    if items == [] then 0 else 1 + Size(items[0]) + ItemsSize(items[1..])
  }

  function MapSize(m: StyleMap): (n: nat) {
    if m == [] then 0 else 1 + Size(m[0].value) + MapSize(m[1..])
  }

  /** The object `Object.keys` sees in an array: the items under the decimal
      spelling of their indices, starting at index `from`. */
  function IndexView(items: seq<Value>, from: nat): (m: StyleMap)
    ensures |m| == |items|
    ensures forall i :: 0 <= i < |items| ==> m[i] == Entry(Decimal(from + i), items[i])
    ensures MapSize(m) == ItemsSize(items)
  {
    if items == [] then [] else [Entry(Decimal(from), items[0])] + IndexView(items[1..], from + 1)
  }

  /** The style map a pseudo-class or media-query value is read as. */
  function View(v: Value): (m: StyleMap)
    ensures v.Obj? || v.Arr? ==> MapSize(m) < Size(v)
    ensures WellFormedValue(v) ==> WellFormed(m)
  {
    match v
    case Obj(entries) => entries
    case Arr(items) =>
      var m := IndexView(items, 0);
      assert Distinct(Keys(m)) by {
        forall i, j | 0 <= i < j < |m|
          ensures Keys(m)[i] != Keys(m)[j]
        {
          DecimalInjective(i, j);
        }
      }
      m
    case _ => []
  }

  lemma KeysAppend(a: StyleMap, b: StyleMap)
    ensures Keys(a + b) == Keys(a) + Keys(b)
  {
  }

  lemma {:induction false} FindAppend(a: StyleMap, b: StyleMap, k: string)
    ensures Find(a + b, k) == if k in Keys(a) then Find(a, k) else Find(b, k)
  {
    if a == [] {
      assert a + b == b;
    } else if a[0].key == k {
      assert (a + b)[0] == a[0];
      assert k in Keys(a);
    } else {
      assert (a + b)[0] == a[0];
      assert (a + b)[1..] == a[1..] + b;
      assert k in Keys(a) <==> k in Keys(a[1..]) by {
        assert Keys(a) == [a[0].key] + Keys(a[1..]);
      }
      FindAppend(a[1..], b, k);
    }
  }

  lemma FindFirstPart(a: StyleMap, b: StyleMap, k: string)
    requires k !in Keys(b)
    ensures Find(a + b, k) == Find(a, k)
  {
    FindAppend(a, b, k);
  }

  lemma FindSecondPart(a: StyleMap, b: StyleMap, k: string)
    requires k !in Keys(a)
    ensures Find(a + b, k) == Find(b, k)
  {
    FindAppend(a, b, k);
  }

  /** With distinct keys, looking up the key of an entry finds that entry. */
  lemma {:induction false} FindEntry(m: StyleMap, i: int)
    requires Distinct(Keys(m)) && 0 <= i < |m|
    ensures Find(m, m[i].key) == Some(m[i].value)
  {
    if i > 0 {
      assert Keys(m)[0] != Keys(m)[i];
      assert Distinct(Keys(m[1..])) by {
        assert forall j :: 0 <= j < |m| - 1 ==> Keys(m[1..])[j] == Keys(m)[j + 1];
      }
      FindEntry(m[1..], i - 1);
    }
  }

  lemma FindMember(m: StyleMap, e: Entry)
    requires Distinct(Keys(m)) && e in m
    ensures Find(m, e.key) == Some(e.value)
  {
    var i :| 0 <= i < |m| && m[i] == e;
    FindEntry(m, i);
  }

  /** Everything held under a key of `m` is smaller than `m`. */
  lemma {:induction false} GetSmaller(m: StyleMap, k: string)
    requires k in Keys(m)
    ensures Size(Get(m, k)) < MapSize(m)
  {
    if m[0].key != k {
      GetSmaller(m[1..], k);
    }
  }

  lemma DistinctAppend(a: seq<string>, b: seq<string>)
    requires Distinct(a) && Distinct(b)
    requires forall k :: k in a ==> k !in b
    ensures Distinct(a + b)
  {
    forall i, j | 0 <= i < j < |a + b|
      ensures (a + b)[i] != (a + b)[j]
    {
      if i < |a| && j >= |a| {
        assert (a + b)[i] in a;
      }
    }
  }

  /** A permutation of distinct keys has distinct keys. */
  lemma DistinctPermutation(a: seq<string>, b: seq<string>)
    requires Distinct(a) && multiset(a) == multiset(b)
    ensures Distinct(b)
  {
    forall i, j | 0 <= i < j < |b|
      ensures b[i] != b[j]
    {
      DistinctCount(a, b[i]);
      if b[i] == b[j] {
        TwoCopies(b, i, j);
      }
    }
  }

  lemma {:induction false} DistinctCount(a: seq<string>, k: string)
    requires Distinct(a)
    ensures multiset(a)[k] <= 1
  {
    if a != [] {
      assert a == [a[0]] + a[1..];
      assert Distinct(a[1..]);
      DistinctCount(a[1..], k);
      if a[0] == k {
        assert k !in a[1..];
      }
    }
  }

  lemma TwoCopies(b: seq<string>, i: int, j: int)
    requires 0 <= i < j < |b| && b[i] == b[j]
    ensures multiset(b)[b[i]] >= 2
  {
    assert b == b[..i] + [b[i]] + b[i + 1..j] + [b[j]] + b[j + 1..];
  }

  /** The first entry and the rest of a well-formed map. */
  lemma WellFormedUncons(m: StyleMap)
    requires WellFormed(m) && m != []
    ensures Keys(m) == [m[0].key] + Keys(m[1..])
    ensures WellFormedValue(m[0].value) && WellFormed(m[1..])
    ensures m[0].key !in Keys(m[1..])
  {
    assert forall j :: 0 <= j < |m| - 1 ==> Keys(m[1..])[j] == Keys(m)[j + 1];
    assert forall j :: 0 <= j < |m| - 1 ==> m[1..][j] == m[j + 1];
  }

  /** Two well-formed maps over disjoint keys append to a well-formed map. */
  lemma WellFormedAppend(a: StyleMap, b: StyleMap)
    requires WellFormed(a) && WellFormed(b)
    requires forall k :: k in Keys(a) ==> k !in Keys(b)
    ensures WellFormed(a + b) && Keys(a + b) == Keys(a) + Keys(b)
  {
    KeysAppend(a, b);
    DistinctAppend(Keys(a), Keys(b));
  }

  /** A map of one well-formed entry is well-formed. */
  lemma Singleton(k: string, v: Value)
    requires WellFormedValue(v)
    ensures Keys([Entry(k, v)]) == [k] && WellFormed([Entry(k, v)])
  {
    assert [Entry(k, v)][1..] == [];
  }
}

=== FILE: text.dfy ===
/**
 The two pieces of JavaScript string behaviour the renderer relies on:
 `String.prototype.replace` with a string pattern (which removes only the
 first occurrence), and the decimal spelling of array indices that
 `Object.keys` produces for an array.
 */
module Text {

  predicate StartsWith(s: string, prefix: string) {
    |prefix| <= |s| && s[..|prefix|] == prefix
  }

  predicate EndsWith(s: string, suffix: string) {
    |suffix| <= |s| && s[|s| - |suffix|..] == suffix
  }

  lemma StartsWithAppend(a: string, b: string)
    ensures StartsWith(a + b, a)
  {
    assert (a + b)[..|a|] == a;
  }

  lemma StartsWithTransitive(s: string, t: string, u: string)
    requires StartsWith(s, t) && StartsWith(t, u)
    ensures StartsWith(s, u)
  {
    assert s[..|u|] == s[..|t|][..|u|];
  }

  /** `pat` occurs in `s` starting at index `i`. */
  predicate OccursAt(s: string, pat: string, i: int) {
    0 <= i && i + |pat| <= |s| && s[i..i + |pat|] == pat
  }

  /** `pat` occurs at `i` and nowhere before `i`. */
  predicate FirstOccurrence(s: string, pat: string, i: int) {
    OccursAt(s, pat, i) && forall j :: 0 <= j < i ==> !OccursAt(s, pat, j)
  }

  /** `s.replace(pat, '')` for a string pattern. */
  function RemoveFirst(s: string, pat: string): (r: string)
    ensures |r| == |s| || |r| == |s| - |pat|
    decreases |s|
  {
    if |s| < |pat| then s
    else if s[..|pat|] == pat then s[|pat|..]
    else [s[0]] + RemoveFirst(s[1..], pat)
  }

  /** An occurrence in `s[1..]` is an occurrence in `s` one place later. */
  lemma ShiftOccurrence(s: string, pat: string, i: int)
    requires |s| > 0 && 0 <= i
    ensures OccursAt(s[1..], pat, i) <==> OccursAt(s, pat, i + 1)
  {
    if i + 1 + |pat| <= |s| {
      assert s[1..][i..i + |pat|] == s[i + 1..i + 1 + |pat|];
    }
  }

  /** Only the first occurrence of the pattern is removed; the text around it is kept. */
  lemma {:induction false} RemoveFirstDeletesFirstOccurrence(s: string, pat: string, i: int)
    requires FirstOccurrence(s, pat, i)
    ensures RemoveFirst(s, pat) == s[..i] + s[i + |pat|..]
    decreases i
  {
    assert |pat| <= |s| && s[i..i + |pat|] == pat;
    if i == 0 {
      assert s[..|pat|] == pat;
      assert s[..0] == [];
    } else {
      assert s[..|pat|] != pat by {
        assert !OccursAt(s, pat, 0);
      }
      var t := s[1..];
      assert FirstOccurrence(t, pat, i - 1) by {
        ShiftOccurrence(s, pat, i - 1);
        forall j | 0 <= j < i - 1
          ensures !OccursAt(t, pat, j)
        {
          ShiftOccurrence(s, pat, j);
        }
      }
      RemoveFirstDeletesFirstOccurrence(t, pat, i - 1);
      calc {
        RemoveFirst(s, pat);
        [s[0]] + RemoveFirst(t, pat);
        [s[0]] + (t[..i - 1] + t[i - 1 + |pat|..]);
        { assert [s[0]] + t[..i - 1] == s[..i]; assert t[i - 1 + |pat|..] == s[i + |pat|..]; }
        s[..i] + s[i + |pat|..];
      }
    }
  }

  /** Text without an occurrence of the pattern is returned unchanged. */
  lemma {:induction false} RemoveFirstWithoutOccurrence(s: string, pat: string)
    requires forall i :: !OccursAt(s, pat, i)
    ensures RemoveFirst(s, pat) == s
    decreases |s|
  {
    if |s| >= |pat| {
      assert !OccursAt(s, pat, 0);
      forall j | 0 <= j
        ensures !OccursAt(s[1..], pat, j)
      {
        ShiftOccurrence(s, pat, j);
      }
      assert forall j :: j < 0 ==> !OccursAt(s[1..], pat, j);
      RemoveFirstWithoutOccurrence(s[1..], pat);
    }
  }

  /** The character of the decimal digit `d`. */
  function DigitChar(d: nat): (c: char)
    requires d < 10
    ensures '0' <= c <= '9'
  {
    ('0' as int + d) as char
  }

  function DigitValue(c: char): (d: nat)
    requires '0' <= c <= '9'
    ensures d < 10
  {
    (c as int - '0' as int) as nat
  }

  predicate AllDigits(s: string) {
    forall i :: 0 <= i < |s| ==> '0' <= s[i] <= '9'
  }

  /** The decimal spelling of `n`, as JavaScript writes an array index. */
  function Decimal(n: nat): (s: string)
    ensures |s| > 0 && AllDigits(s)
  {
    if n < 10 then [DigitChar(n)] else Decimal(n / 10) + [DigitChar(n % 10)]
  }

  /** Reads a string of decimal digits back as a number. */
  function ParseDecimal(s: string): (n: nat)
    requires AllDigits(s)
  {
    if s == [] then 0 else ParseDecimal(s[..|s| - 1]) * 10 + DigitValue(s[|s| - 1])
  }

  lemma {:induction false} DecimalRoundTrip(n: nat)
    ensures ParseDecimal(Decimal(n)) == n
  {
    if n >= 10 {
      var s := Decimal(n);
      assert s[..|s| - 1] == Decimal(n / 10);
      DecimalRoundTrip(n / 10);
    }
  }

  /** Distinct indices are spelled differently, so an array's keys are distinct. */
  lemma DecimalInjective(a: nat, b: nat)
    ensures Decimal(a) == Decimal(b) ==> a == b
  {
    DecimalRoundTrip(a);
    DecimalRoundTrip(b);
  }
}
